=== FILE: README.md ===
# Timetable schedule engine

A model of the schedule engine of `jwc`. The tool turns the records of a
university timetable portal into calendar entries and answers "what is on at
this slot" queries.

It covers:

- `src/jwc/schedule.py`:
  - reading period ranges (`1-4,6,8-10`) and week lists (`1-8,10,11-15单`);
  - choosing a cell's periods, including the continuation-cell rule;
  - the fixed period-to-clock table;
  - the weekly recurrence (`ScheduledDates`);
  - anchoring a month/day exam date to the semester;
  - the three record decoders (lesson, lab, exam) after their pattern matched;
  - reminders, the expansion of an entry into events, and the overlap test;
  - `Schedule.from_kb` and `Schedule.query_lesson_at`;
  - the short semester label `get_semester_desc_brief`.
- `src/jwc/cli/__init__.py`: the semester argument parser `parse_semester_arg`.

How the model represents the source:

- Python exceptions become `Result` failures. `Exc` has four cases: `ValueError`, `IndexError`, `KeyError` and `TypeError`. `from_kb` catches only `ValueError`, so each of the other three ends the batch. Its handler for a `ValueError` record is modelled twice: as written (it raises `TypeError` when the caller passes an error list) and as evidently intended (the record is reported); see Findings.
- Clock times are minutes since midnight.
- Dates are `Date(year, month, day)` with Python's validity rules. `all_dates` produces day ordinals, as `date.toordinal()` numbers them.
- Regular-expression matching is abstracted. A `Matcher` gives the groups each of the three record patterns captures, and the model starts from those groups.
- Exam dates are anchored under a `DateRule`: `AsWritten` uses `_parse_date` as written and `Corrected` the corrected one (see Findings). The builder as written uses the first, and the corrected builder the second.
- `int()`, `str.split`, `str.strip`, `str()` of a number and `str.lower` are modelled in `PyText`. Whitespace is Python's full whitespace set; digits and letters are ASCII.

Modules, one file each:

| module | file | contents |
|---|---|---|
| `Results` | results.dfy | `Option`, `Result`, and the error reasons and exception kinds |
| `PyText` | pytext.dfy | split/join, `int()`, `str()`, strip, lower |
| `Calendar` | calendar.dfy | Gregorian dates, validity, order and ordinals |
| `Periods` | periods.dfy | `_to_range(s)`, `time_slot_mapping`, `determine_time_slot_ranges` |
| `Weeks` | weeks.dfy | `_parse_scheduled_weeks`, `ScheduledDates` |
| `ExamDate` | examdate.dfy | `_parse_date`: as written, and corrected |
| `Entries` | entries.dfy | record decoders, alarms, events, overlap |
| `Schedules` | schedules.dfy | `from_kb` as written and corrected, `query_lesson_at` |
| `Semester` | semester.dfy | `parse_semester_arg`, `get_semester_desc_brief` |

`schedule.py` has no step that merges entries of adjacent periods: `from_kb` appends each decoded entry as it is, and so does the model.

## Model

| member | source | states |
|---|---|---|
| PyText.JoinSplit | src/jwc/schedule.py:41 | joining the pieces of `s.split(c)` with `c` gives back `s` |
| PyText.SplitJoin | src/jwc/schedule.py:48 | splitting the join of separator-free pieces gives back exactly those pieces |
| PyText.SplitAppend | src/jwc/schedule.py:107 | the pieces of `a,b` are the pieces of `a` followed by those of `b` |
| PyText.ParseIntStrip | src/jwc/schedule.py:41 | `int(s)` is: strip Python whitespace (the ASCII controls `\t`–`\r` and `\x1c`–`\x1f`, the space, and the Unicode spaces such as U+00A0 and U+3000), then an optional sign and at least one digit |
| PyText.ParseIntUnicodeSpace | src/jwc/schedule.py:41 | an ideographic space before and a no-break space after `5`, or `\x1f` after it, still read as 5 |
| PyText.ParseIntNatToString | src/jwc/schedule.py:41 | `int(str(n)) == n` for every non-negative `n` |
| PyText.ParseIntChar | src/jwc/schedule.py:135 | `int()` of one character is its digit value, and fails for a non-digit |
| PyText.ToInt | src/jwc/schedule.py:41 | `int()` succeeds exactly when the text is an integer literal; otherwise it raises `ValueError` naming the text |
| PyText.LeadingDigits | src/jwc/cli/__init__.py:18 | `\d+` takes the longest digit prefix: it is a prefix, all digits, and is followed by a non-digit or the end |
| PyText.Lower | src/jwc/cli/__init__.py:18 | lower-casing keeps the length and maps each character on its own |
| Calendar.MakeDate | src/jwc/schedule.py:99 | `datetime.date(y, m, d)` succeeds exactly for a valid date and otherwise raises `ValueError` |
| Calendar.OrdinalMonotone | src/jwc/schedule.py:100 | comparing dates is comparing their ordinals, and equal ordinals mean equal dates |
| Periods.SlotTableShape | src/jwc/schedule.py:61-74 | the period table covers exactly periods 1..12; every period starts before it ends, and a later period starts after an earlier one ends |
| Periods.IntsOf | src/jwc/schedule.py:41 | `map(int, pieces)` succeeds iff every piece is an integer; it then gives each piece's value, and otherwise a `ValueError` |
| Periods.ToRange | src/jwc/schedule.py:37-42 | `_to_range` succeeds iff every `-` piece is an integer, and then runs from the first piece's value to the last piece's; otherwise it raises `ValueError` naming the first piece that is not an integer |
| Periods.RangesOf | src/jwc/schedule.py:48 | the range list succeeds iff every piece reads as a range, and then holds each piece's range in order |
| Periods.ToRanges | src/jwc/schedule.py:45-48 | `_to_ranges` gives one range per `,` piece, succeeds iff every piece reads, and fails only with `ValueError` |
| Periods.ToRangeRender | src/jwc/schedule.py:37-42 | `_to_range` reads a written `a-b` or `a` back as the range |
| Periods.ToRangesRender | src/jwc/schedule.py:45-48 | `_to_ranges` inverts the writing of any non-empty list of ranges |
| Periods.ToRangesExample | src/jwc/schedule.py:47 | `'1-4,6,8-10'` reads as `[(1,4),(6,6),(8,10)]` |
| Periods.DetermineSlotRanges | src/jwc/schedule.py:140-151 | with no period list the result is the block `(2k-1, 2k)`; with one, it is the whole list iff its first start lies in that block, and `[]` otherwise; it fails only when the key or the list is not integers |
| Periods.ContinuationCellsKeepOnce | src/jwc/schedule.py:147-151 | of two cells with different period digits showing the same period list, at most one keeps it |
| Periods.KeptListStartsInBlock | src/jwc/schedule.py:144-149 | a non-empty result starts inside the cell's own block |
| Periods.SlotSpan | src/jwc/schedule.py:173 | a period range maps to the clock span from its first period's start to its last period's end; a period outside the table raises `KeyError` |
| Periods.SlotSpans | src/jwc/schedule.py:172-175 | the mapping succeeds iff every range's periods are in the table; it then maps each range in order, and otherwise raises `KeyError` |
| Periods.SlotSpanProper | src/jwc/schedule.py:61-74 | a range of periods within 1..12, in order, maps to a span that starts before it ends |
| Weeks.Range | src/jwc/schedule.py:118 | `range(lo, hi + 1)` lists `lo..hi` ascending, one each: position `i` holds `lo + i`, a value is listed iff it lies in `lo..hi`, and nothing is listed when `hi < lo` |
| Weeks.WithParity | src/jwc/schedule.py:112 | the parity filter keeps exactly the elements of that parity and drops nothing else; a single element is kept iff it has the parity |
| Weeks.WithParityAppend | src/jwc/schedule.py:112-115 | filtering `a + b` is filtering `a` then `b`, so the filter keeps order and repetitions |
| Weeks.WithParityAscending | src/jwc/schedule.py:112-115 | filtering an ascending list by parity keeps it ascending |
| Weeks.PairOf | src/jwc/schedule.py:111 | unpacking `w0, w1` succeeds iff the text splits at `-` into exactly two integer pieces, giving their values; anything else raises `ValueError` |
| Weeks.ParseSpan | src/jwc/schedule.py:108-118 | a piece without `-` reads iff it is an integer and gives just that week; with `-`, after dropping a trailing `单`/`双`, it reads iff the pair unpacks; every failure is `ValueError` |
| Weeks.ParseSpanMeaning | src/jwc/schedule.py:110-118 | a dashed piece gives exactly the weeks between its two ends, only odd ones for `单` and only even ones for `双`, in ascending order |
| Weeks.ParseSpansReads | src/jwc/schedule.py:107-119 | a piece list reads iff every piece reads, and otherwise raises the error of the first piece that does not |
| Weeks.ParseScheduledWeeks | src/jwc/schedule.py:105-119 | `_parse_scheduled_weeks` succeeds iff every `,` piece reads as a week span, and otherwise raises the `ValueError` of the first piece that does not |
| Weeks.ExpandMeaning | src/jwc/schedule.py:108-118 | `a-b` denotes every week `a..b` ascending, `a-b单` the odd ones, `a-b双` the even ones, and `n` just `[n]`; each list is ascending |
| Weeks.ParseSpanRender | src/jwc/schedule.py:108-118 | reading one written week token gives the weeks it denotes |
| Weeks.ParseSpansRender | src/jwc/schedule.py:107-119 | reading written tokens concatenates their weeks in token order |
| Weeks.ParseScheduledWeeksRender | src/jwc/schedule.py:105-119 | `_parse_scheduled_weeks` inverts the writing of any non-empty token list, duplicates included |
| Weeks.ParseScheduledWeeksAppend | src/jwc/schedule.py:107-119 | the weeks of `a,b` are those of `a` then those of `b`, and the first unreadable piece decides the error |
| Weeks.EvenWeeksExample | src/jwc/schedule.py:110-112 | `3-7双` gives `[4, 6]` |
| Weeks.NonIntegerWeekFails | src/jwc/schedule.py:108-109 | a lone piece that is not an integer raises `ValueError` |
| Weeks.AllDates | src/jwc/schedule.py:82-87 | `all_dates` gives one date per listed week, in order: `start + 7(week-1) + (dow-1)` |
| Weeks.Contains | src/jwc/schedule.py:89-90 | `contains(w, d)` holds iff `d` is the recurrence's weekday and `w` stands at some position of the week list |
| Weeks.ContainsIffOccurs | src/jwc/schedule.py:82-90 | `contains(w, d)` holds iff the day of week `w`, weekday `d` is among `all_dates` |
| Weeks.AllDatesOrdered | src/jwc/schedule.py:82-87 | ascending weeks give ascending dates, and every date lies `dow - 1` days after a multiple of 7 days from the start date; that is the entry's weekday when the start is a Monday, as the caller picks it (`src/jwc/cli/cache.py:141-144`) |
| ExamDate.MonthDayComplete | src/jwc/schedule.py:95 | text starting with `M月D日` yields the month digits and the day digits |
| ExamDate.ParseDateAsWritten | src/jwc/schedule.py:93-102 | the result has the written month and day, lies in the start's year or the next, and is not before the start; it succeeds iff the start year's date exists and (is not before the start, or the next year's exists) |
| ExamDate.ParseDate | src/jwc/schedule.py:93-102 | the result is the earliest date on or after the start with the written month and day, in the start's year or the next; it fails only for text without `M月D日`, or when neither year has that date on or after the start |
| ExamDate.AsWrittenAgrees | src/jwc/schedule.py:99-101 | where the code as written returns a date, it is the intended one; the two differ only when the date is missing in the start year but exists in the next |
| ExamDate.LeapDayCounterexample | src/jwc/schedule.py:99-101 | with start 2023-09-01, `2月29日` raises as written, while the intended result is 2024-02-29 |
| ExamDate.RolloverExample | src/jwc/schedule.py:100-101 | with start 2025-09-01, `3月1日` is 2026-03-01 |
| Entries.KeyChar | src/jwc/schedule.py:135 | `KEY[i]` is the i-th character, or `IndexError` past the end |
| Entries.ParseDayOfWeek | src/jwc/schedule.py:133-138 | the weekday is `KEY[2]` and lies in 1..7; a short key raises `IndexError`, anything else `ValueError` |
| Entries.MakeTime | src/jwc/schedule.py:51-58 | a clock time exists exactly for hour 0..23 and minute 0..59 |
| Entries.ExamTime | src/jwc/schedule.py:240-247 | the exam span runs from the first `h:m` to the last one; it succeeds iff there are four integer fields forming two clock times (hour 0..23, minute 0..59); a different count of integers raises `TypeError`, every other failure is `ValueError` |
| Entries.ExamTimeRender | src/jwc/schedule.py:240-247 | `hh:mm-hh:mm` reads back as the span between those two times |
| Entries.ExamTimeExample | src/jwc/schedule.py:240-247 | `08:00-10:00` reads as the span from 8:00 to 10:00 |
| Entries.WeeklyDates | src/jwc/schedule.py:178-180 | the recurrence is the parsed week list on the key's weekday; a failure is the week list's error if that fails, else the weekday's |
| Entries.CellSpans | src/jwc/schedule.py:168-175 | a cell's spans are its periods, chosen with `KEY[6]`, mapped through the table; a key shorter than 7 raises `IndexError`, unreadable periods raise `ValueError`, and otherwise it fails iff a period is outside the table, with `KeyError` |
| Entries.ParseLesson | src/jwc/schedule.py:153-195 | no match gives no entry; a match succeeds iff the cell's spans and the weekly dates both succeed, and otherwise raises the error of the first failing one; it gives a weekly lesson with the captured name, teacher and location, the cell's spans, the week recurrence and the exchange-code note |
| Entries.LessonDescription | src/jwc/schedule.py:176-185 | the note is empty iff the record has no attachment; otherwise its lines are the exchange-code heading, the link to the attachment and the record's note text (empty when missing) |
| Entries.ParseLab | src/jwc/schedule.py:197-224 | no match gives no entry; a match succeeds iff the cell's spans and the weekly dates both succeed, and otherwise raises the error of the first failing one; it gives a weekly lab with the course and lab names, its spans and recurrence, and no teacher or note |
| Entries.ParseExam | src/jwc/schedule.py:226-251 | no match gives no entry; a match gives a one-off exam on the date anchored by the chosen rule (`_parse_date` as written, or corrected) with one span; on failure either the time failed and its error is returned (it is read first), or the time read and the date failed and its error is returned |
| Entries.DecodeRecord | src/jwc/schedule.py:360-364 | the chain's result is the exam decoder's (under the same date rule) when the exam pattern matches, else the lab decoder's when the lab pattern matches, else the lesson decoder's |
| Entries.DecodePriority | src/jwc/schedule.py:360-364 | decoders are tried exam, lab, lesson; an exam-shaped record never becomes a lab or lesson, nor a lab-shaped one a lesson; a record matching nothing gives nothing |
| Entries.Alarms | src/jwc/schedule.py:276-286 | the reminders are distinct and before the start, and are exactly: for a lab two days, 30 and 15 minutes; for a lesson 15 and 30 minutes; for an exam 30, 60 and 120 minutes |
| Entries.EntryDays | src/jwc/schedule.py:309-313 | a fixed date gives that one day, and a weekly recurrence gives `all_dates` |
| Entries.Expansion | src/jwc/schedule.py:306-326 | the events are laid out range by range and, within a range, date by date: position `i·n + j` (`n` dates) holds date `j` with range `i`; so there is one event per (range, date) pair, repeats included, and no other event |
| Entries.ExpansionRepeatedDay | src/jwc/schedule.py:309-326 | a date listed twice gives two events: range `0-10` on dates `[1, 1, 2]` gives three events, in that order |
| Entries.ToIcsEvent | src/jwc/schedule.py:305-326 | an entry's events are its time ranges paired with its dates, one per pair, range by range and date by date within a range |
| Entries.OverlapsWith | src/jwc/schedule.py:328-336 | true iff some time range overlaps the span; an entry without ranges overlaps nothing |
| Entries.OverlapMeaning | src/jwc/schedule.py:334 | `max(s1,s2) < min(e1,e2)` holds iff some minute lies in both spans; the test is symmetric, and back-to-back spans do not overlap |
| Schedules.WeekdayEightReported | src/jwc/schedule.py:353-373 | in the corrected builder, a lesson record whose weekday digit is `8` is reported as an error record naming that weekday, and the batch goes on |
| Schedules.StepOf | src/jwc/schedule.py:355-371 | a record is skipped iff its key is `bz`; kept iff it decodes to an entry; unrecognised iff no pattern matches; reported, with its reason, iff decoding raises `ValueError`; any other exception escapes; the corrected builder keeps the reported records, the one as written halts or drops them |
| Schedules.FromKb | src/jwc/schedule.py:345-374 | the corrected builder, with corrected exam dates: succeeds iff no record raises anything but `ValueError`; the entries and error records are then those of the records, in record order; otherwise the first escaping exception is returned |
| Schedules.FromKbAsWritten | src/jwc/schedule.py:345-374 | the builder as written, decoding exam dates with `_parse_date` as written: without an error list it succeeds iff no record raises anything but `ValueError`, dropping those records; with one it succeeds iff no record raises at all, and the first `ValueError` record ends it with `TypeError`; on success the entries are those of the records, in order |
| Schedules.NoneHaltsMeaning | src/jwc/schedule.py:355-371 | as written, a batch runs to its end iff no record raises anything but `ValueError` and, with an error list, none raises `ValueError` either |
| Schedules.WeekdayEightHalts | src/jwc/schedule.py:365-370 | for one lesson record with weekday digit `8`: the corrected builder reports it; as written, with an error list the batch ends in `TypeError`, and without one it yields no entry and no error |
| Schedules.LeapDayExamHalts | src/jwc/schedule.py:99-101 | an exam on `2月29日`, 08:00-10:00, with start 2023-09-01: the corrected builder keeps it on 2024-02-29; as written, with an error list the batch ends in `TypeError`, and without one the exam is lost |
| Schedules.BuildAppend | src/jwc/schedule.py:354-373 | the entries and errors of `a + b` are those of `a` followed by those of `b` |
| Schedules.BuildSingle | src/jwc/schedule.py:355-373 | one record yields at most one entry or one error record, and a remarks record yields neither |
| Schedules.BuildCounts | src/jwc/schedule.py:354-373 | there are never more entries plus error records than records |
| Schedules.RemarksIgnored | src/jwc/schedule.py:355-357 | inserting a `bz` record anywhere changes neither the entries nor the errors |
| Schedules.Selected | src/jwc/schedule.py:394-408 | an entry is selected iff it is in the schedule and passes both the date test and the overlap test; a single entry is selected once if it passes and not at all otherwise |
| Schedules.SelectedAppend | src/jwc/schedule.py:394-408 | the selection of `a + b` is the selection of `a` followed by that of `b` (order kept) |
| Schedules.QueryLessonAt | src/jwc/schedule.py:387-408 | the query yields exactly the selected entries, in order; it raises `KeyError` iff a queried period is outside the table and some entry passes the date test |
| Semester.SeasonTag | src/jwc/cli/__init__.py:18 | the optional season group is a prefix of what follows the digits: a two-letter tag when one starts there, else one character of `a f s 春 夏 秋`, and nothing iff the next character is none of those |
| Semester.ParseSemesterArg | src/jwc/cli/__init__.py:16-42 | text without leading digits raises `ValueError`; every failure is `ValueError`; the term is `1`, `2` or `3` |
| Semester.FromTag | src/jwc/cli/__init__.py:29-42 | spring tags give academic year `(Y-1)-Y`, term `2`; summer tags `(Y-1)-Y`, term `3`; autumn tags or no tag `Y-(Y+1)`, term `1`; any other tag raises `ValueError` naming it |
| Semester.ParseShape | src/jwc/cli/__init__.py:18-27 | the year is the leading digits of the lower-cased text, with 2000 added below 100, and the season tag is read right after them |
| Semester.SemesterDescBrief | src/jwc/schedule.py:20-23 | the label is the last two characters of the chosen year piece (the first for term `1`, else the second) followed by the season's character; it raises `IndexError` iff that piece is missing and `KeyError` iff it exists and the term is not `1`, `2` or `3` |
| Semester.ParseTwoDigits | src/jwc/cli/__init__.py:23-38 | `yy` plus 春/夏/秋 reads as the canonical academic year of 20yy and that season's term |
| Semester.FullYearSeasons | src/jwc/cli/__init__.py:18-38 | a year of three or more digits is used as it is: `Y春` is `(Y-1)-Y` term `2`, `Y夏` is `(Y-1)-Y` term `3`, `Y秋` is `Y-(Y+1)` term `1` |
| Semester.BriefOfParse | src/jwc/schedule.py:20-23 | round trip: the short label of the parse of `yy` plus 春/夏/秋 is the same text again |
| Semester.ParseOfBrief | src/jwc/cli/__init__.py:16-42 | round trip: for terms in 2000..2099 the short label reads back as the same academic year and term |
| Semester.CaseInsensitive | src/jwc/cli/__init__.py:18 | texts equal after lower-casing parse to the same result, so `25SP` is `25sp` |
| Semester.SpringAliases | src/jwc/cli/__init__.py:30-32 | `s`, `sp` and `春` name the same semester |
| Semester.SummerAliases | src/jwc/cli/__init__.py:33-35 | `su` and `夏` name the same semester |
| Semester.FallAliases | src/jwc/cli/__init__.py:36-38 | `f`, `fa` and `秋` name the same semester |
| Semester.AutumnAlias | src/jwc/cli/__init__.py:36-38 | `au` and `秋` name the same semester |
| Semester.BareIsFall | src/jwc/cli/__init__.py:36-38 | a year without a season is the autumn term |
| Semester.DefaultsToFall | src/jwc/cli/__init__.py:18-38 | digits followed by an unrecognised suffix such as `25x` read as autumn of academic year `Y-(Y+1)`, term `1`, where `Y` is 20yy below 100 and the number itself otherwise |
| Semester.LoneAFails | src/jwc/cli/__init__.py:39-40 | a lone `a` suffix is captured but belongs to no season, so it raises `ValueError` |

## Left out

- Regular-expression matching of the three record patterns is not modelled, because the behaviour is Python `re`: the groups they capture are an input, `Matcher`.
- ExamDate.MonthDay: the `M月D日` pattern is defined over ASCII digits only.
- PyText.LeadingDigits: `\d` in Python also matches other Unicode decimal digits, such as full-width `２５`; only ASCII digits are modelled.
- Semester.ParseSemesterArg: an argument led by non-ASCII decimal digits (`２５秋`) is accepted by the source through `\d` and `int()`, but raises `ValueError` in the model.
- Name and location decoration (`get_ics_name`, `get_ics_description`, `preprocess.py`) is left out. Those are string formatting over an unmodelled module.
- `ics` objects, `to_ics`, and `get_calendar_name` (which reads today's date) are left out. Events are modelled as `(day, start, end)` triples and alarms as minute offsets.
- `get_semester_description` is left out. It is formatting only.
- `from_XsksByxhList_item` and `from_xsks` are left out. They depend on ISO datetime parsing and time-zone conversion.
- Time zones are left out. All clock times are minutes in one zone.
- `all_dates` yields day ordinals. Python's overflow past year 9999 is not modelled.
- Schedules.FromKb: the corrected error record holds the record itself and the reason code, not a serialised text and a message, because the message wording is not part of the model.
- PyText.ParseInt: `int()` accepts surrounding Python whitespace, an optional sign and ASCII digits. Underscores between digits, Unicode digits and the 4300-digit limit are not modelled.
- PyText.Lower: lower-cases ASCII letters only; Unicode case mapping is not modelled.
- Schedules.StepOf: its `Reported` step is what the corrected builder does with a `ValueError` record: report it and go on. As written this never happens: with an error list the batch ends in `TypeError`, without one the record is dropped; `Schedules.FromKbAsWritten` reads the step that way, see Findings.
- Schedules.FromKb: returns the error records to every caller. A caller without an error list, such as `phxp_arrange` (`src/jwc/cli/__init__.py:171`), has none in the source; `Schedules.FromKbAsWritten` with `withErrorList` false is that case.
- Calendar.MakeDate: CPython raises `OverflowError`, not `ValueError`, for a field beyond the C `int` range; that case is not modelled.
- Entries.MakeTime: CPython raises `OverflowError`, not `ValueError`, for an hour or minute beyond the C `int` range; that case is not modelled.
- Schedules.QueryLessonAt: the generator is modelled as read to the end. Entries yielded before a `KeyError` are not returned.
- Authentication, caching, the network, the spreadsheet annotator, `phxp` and the rest of the command line are outside this model.

## Findings

| source | as written | input that shows it | evidently intended | confidence | as-written member | corrected member |
|---|---|---|---|---|---|---|
| src/jwc/schedule.py:365-370 | writes a record that raised `ValueError` to the error list with `json.dumps(item)`, but `item` is a pydantic `KbEntry` (`src/jwc/jwapi_model.py`), which `json.dumps` cannot serialise, so `TypeError` escapes `from_kb` | any record whose decoding raises `ValueError`, such as a lesson whose key has weekday digit `8`, passed by `to_ics` with an error list (`src/jwc/cli/__init__.py:112-117`); stated by Schedules.WeekdayEightHalts | the record is reported with its reason and the batch goes on | not executed | Schedules.FromKbAsWritten | Schedules.FromKb |
| src/jwc/schedule.py:99-101 | builds `date(d0.year, m, d)` before checking whether the date lies before `d0`, so a date that exists only in the next year raises `ValueError` | `_parse_date("2月29日", date(2023, 9, 1))`, stated by ExamDate.LeapDayCounterexample; in a whole batch, by Schedules.LeapDayExamHalts | 2024-02-29: the earliest such date on or after the start | not executed | ExamDate.ParseDateAsWritten | ExamDate.ParseDate |

=== FILE: calendar.dfy ===
/** Proleptic Gregorian dates as Python's `datetime.date` has them: years
    1..9999, lexicographic order, and day ordinals (`date.toordinal`). */
module Calendar {
  import opened Results

  datatype Date = Date(year: int, month: int, day: int)

  const MinYear := 1
  const MaxYear := 9999

  predicate IsLeap(y: int) {
    y % 4 == 0 && (y % 100 != 0 || y % 400 == 0)
  }

  function DaysInMonth(y: int, m: int): int
    requires 1 <= m <= 12
  {
    if m == 2 then (if IsLeap(y) then 29 else 28)
    else if m == 4 || m == 6 || m == 9 || m == 11 then 30
    else 31
  }

  function DaysInYear(y: int): int {
    if IsLeap(y) then 366 else 365
  }

  /** A date `datetime.date` accepts. */
  predicate Valid(d: Date) {
    MinYear <= d.year <= MaxYear && 1 <= d.month <= 12 && 1 <= d.day <= DaysInMonth(d.year, d.month)
  }

  /** `a < b` on dates: lexicographic on (year, month, day). */
  predicate Before(a: Date, b: Date) {
    a.year < b.year
    || (a.year == b.year && a.month < b.month)
    || (a.year == b.year && a.month == b.month && a.day < b.day)
  }

  /** `datetime.date(y, m, d)`: the date, or `ValueError` when it does not exist. */
  function MakeDate(y: int, m: int, d: int): (r: Result<Date>)
    ensures r.Success? <==> Valid(Date(y, m, d))
    ensures r.Success? ==> r.value == Date(y, m, d)
    ensures r.Failure? ==> r.error == ValueError(InvalidDate(y, m, d))
  {
    if Valid(Date(y, m, d)) then Success(Date(y, m, d)) else Failure(ValueError(InvalidDate(y, m, d)))
  }

  function DaysBeforeYear(y: int): int
    requires y >= 1
  {
    var p := y - 1;
    p * 365 + p / 4 - p / 100 + p / 400
  }

  function DaysBeforeMonth(y: int, m: int): int
    requires 1 <= m <= 12
  {
    var table := [0, 0, 31, 59, 90, 120, 151, 181, 212, 243, 273, 304, 334];
    table[m] + (if m > 2 && IsLeap(y) then 1 else 0)
  }

  /** `date.toordinal()`: 1 for 0001-01-01, counting days. */
  function ToOrdinal(d: Date): int
    requires Valid(d)
  {
    DaysBeforeYear(d.year) + DaysBeforeMonth(d.year, d.month) + d.day
  }

  lemma DivStep4(x: int)
    requires x >= 0
    ensures (x + 1) / 4 - x / 4 == (if (x + 1) % 4 == 0 then 1 else 0)
  {
  }

  lemma DivStep100(x: int)
    requires x >= 0
    ensures (x + 1) / 100 - x / 100 == (if (x + 1) % 100 == 0 then 1 else 0)
  {
  }

  lemma DivStep400(x: int)
    requires x >= 0
    ensures (x + 1) / 400 - x / 400 == (if (x + 1) % 400 == 0 then 1 else 0)
  {
  }

  /** A year adds exactly its own length to the count of days before it. */
  lemma DaysBeforeNextYear(y: int)
    requires y >= 1
    ensures DaysBeforeYear(y + 1) == DaysBeforeYear(y) + DaysInYear(y)
  {
    var p := y - 1;
    DivStep4(p);
    DivStep100(p);
    DivStep400(p);
    var a, b, c := y / 4 - p / 4, y / 100 - p / 100, y / 400 - p / 400;
    assert DaysBeforeYear(y + 1) == y * 365 + y / 4 - y / 100 + y / 400;
    assert DaysBeforeYear(y) == p * 365 + p / 4 - p / 100 + p / 400;
    assert y * 365 == p * 365 + 365;
    assert DaysBeforeYear(y + 1) - DaysBeforeYear(y) == 365 + a - b + c;
    assert 365 + a - b + c == DaysInYear(y);
  }

  lemma {:induction false} DaysBeforeYearGrows(y1: int, y2: int)
    requires 1 <= y1 < y2
    ensures DaysBeforeYear(y1) + DaysInYear(y1) <= DaysBeforeYear(y2)
    decreases y2 - y1
  {
    DaysBeforeNextYear(y1);
    if y1 + 1 < y2 {
      DaysBeforeYearGrows(y1 + 1, y2);
    }
  }

  lemma MonthFitsInYear(d: Date)
    requires Valid(d)
    ensures DaysBeforeMonth(d.year, d.month) + d.day <= DaysInYear(d.year)
  {
  }

  lemma MonthsGrow(y: int, m1: int, m2: int)
    requires 1 <= m1 < m2 <= 12
    ensures DaysBeforeMonth(y, m1) + DaysInMonth(y, m1) <= DaysBeforeMonth(y, m2)
  {
  }

  /** The ordinal agrees with the date order: earlier dates have smaller ordinals. */
  lemma OrdinalMonotone(a: Date, b: Date)
    requires Valid(a) && Valid(b)
    ensures Before(a, b) <==> ToOrdinal(a) < ToOrdinal(b)
    ensures a == b <==> ToOrdinal(a) == ToOrdinal(b)
  {
    if a.year < b.year {
      MonthFitsInYear(a);
      DaysBeforeYearGrows(a.year, b.year);
    } else if b.year < a.year {
      MonthFitsInYear(b);
      DaysBeforeYearGrows(b.year, a.year);
    } else if a.month < b.month {
      MonthsGrow(a.year, a.month, b.month);
    } else if b.month < a.month {
      MonthsGrow(a.year, b.month, a.month);
    }
  }
}

=== FILE: entries.dfy ===
/** Schedule entries: decoding one timetable record into a lesson, lab or
    exam, the reminders and calendar occurrences of an entry, and the
    clock-time overlap test. */
module Entries {
  import opened Results
  import opened PyText
  import opened Calendar
  import opened Periods
  import opened Weeks
  import opened ExamDate

  datatype Kind = Lesson | Exam | Lab

  /** When an entry happens: weekly in teaching weeks, or on one date (exams). */
  datatype Recurrence = Weekly(sd: ScheduledDates) | Fixed(date: Date)

  datatype Entry = Entry(
    name: string,
    dates: Recurrence,
    timeRanges: seq<Span>,
    location: string,
    kind: Kind,
    teacher: string,
    description: string,
    labName: Option<string>)

  /** One timetable record from the portal (`KbEntry`): the fields the engine reads. */
  datatype KbRecord = KbRecord(sksj: string, key: string, fileUrl: Option<string>, kcwzsm: Option<string>)

  /** Groups captured by the lesson pattern: name, teacher, week list,
      location and the optional explicit period list. */
  datatype LessonGroups = LessonGroups(name: string, teacher: string, weeks: string, location: string, slots: Option<string>)

  /** Groups captured by the lab pattern. */
  datatype LabGroups = LabGroups(course: string, labName: Option<string>, slots: string, weeks: string, location: string)

  /** Groups captured by the exam pattern. */
  datatype ExamGroups = ExamGroups(name: string, date: string, time: string, location: string)

  /** The three record shapes, as matchers over the record text. */
  datatype Matcher = Matcher(
    lesson: string -> Option<LessonGroups>,
    lab: string -> Option<LabGroups>,
    exam: string -> Option<ExamGroups>)

  // ------------------------------------------------------------ fields

  /** `key[i]`, raising `IndexError` past the end. */
  function KeyChar(key: string, i: nat): (r: Result<string>)
    ensures r.Success? <==> i < |key|
    ensures r.Success? ==> r.value == [key[i]]
    ensures r.Failure? ==> r.error == IndexError
  {
    if i < |key| then Success([key[i]]) else Failure(IndexError)
  }

  /** `parse_day_of_week`: the weekday is the third character of the key,
      and must be a digit 1..7. */
  function ParseDayOfWeek(key: string): (r: Result<int>)
    ensures r.Success? <==> |key| >= 3 && '1' <= key[2] <= '7'
    ensures r.Success? ==> r.value == DigitValue(key[2]) && 1 <= r.value <= 7
    ensures |key| < 3 ==> r == Failure(IndexError)
    ensures |key| >= 3 && r.Failure? ==> r.error.ValueError?
  {
    var c :- KeyChar(key, 2);
    ParseIntChar(key[2]);
    var day :- ToInt(c);
    if 1 <= day <= 7 then Success(day) else Failure(ValueError(WeekdayOutOfRange(day)))
  }

  /** An hour and minute that name a time of day. */
  predicate ClockTime(h: int, m: int) {
    0 <= h < 24 && 0 <= m < 60
  }

  /** `datetime.time(h, m)` as minutes since midnight. */
  function MakeTime(h: int, m: int): (r: Result<int>)
    ensures r.Success? <==> 0 <= h < 24 && 0 <= m < 60
    ensures r.Success? ==> r.value == Clock(h, m)
    ensures r.Failure? ==> r.error == ValueError(InvalidTime(h, m))
  {
    if 0 <= h < 24 && 0 <= m < 60 then Success(Clock(h, m)) else Failure(ValueError(InvalidTime(h, m)))
  }

  /** The clock span of an exam time text `HH:MM-HH:MM`: the fields before
      the first and after the last `-`, split at `:`; a non-integer field
      raises `ValueError`, a field count other than four `TypeError`, an
      impossible clock time `ValueError`. */
  function ExamTime(text: string): (r: Result<Span>)
    ensures r.Success? <==>
      var fields := ExamFields(text);
      && |fields| == 4 && AllInts(fields)
      && ClockTime(ParseInt(fields[0]).value, ParseInt(fields[1]).value)
      && ClockTime(ParseInt(fields[2]).value, ParseInt(fields[3]).value)
    ensures r.Success? ==>
      var fields := ExamFields(text);
      && |fields| == 4 && AllInts(fields)
      && r.value == Span(Clock(ParseInt(fields[0]).value, ParseInt(fields[1]).value),
                         Clock(ParseInt(fields[2]).value, ParseInt(fields[3]).value))
      && 0 <= r.value.start < Clock(24, 0) && 0 <= r.value.end < Clock(24, 0)
    ensures r.Failure? ==> r.error.ValueError? || r.error == TypeError
    ensures r == Failure(TypeError) <==> AllInts(ExamFields(text)) && |ExamFields(text)| != 4
  {
    var ns :- IntsOf(ExamFields(text));
    if |ns| != 4 then Failure(TypeError)
    else
      var t0 :- MakeTime(ns[0], ns[1]);
      var t1 :- MakeTime(ns[2], ns[3]);
      Success(Span(t0, t1))
  }

  function ExamFields(text: string): seq<string> {
    var halves := Split(text, '-');
    Split(halves[0], ':') + Split(halves[|halves| - 1], ':')
  }

  /** A number below 100 written with two digits, as the portal writes clock times. */
  function Pad2(n: nat): (s: string)
    requires n < 100
    ensures |s| == 2 && AllDigits(s) && DigitsValue(s) == n
  {
    var s := [DigitChar(n / 10), DigitChar(n % 10)];
    assert s[..1] == [DigitChar(n / 10)];
    assert s[..1][..0] == [];
    assert DigitsValue(s[..1]) == n / 10;
    s
  }

  function RenderClock(h: nat, m: nat): string
    requires h < 100 && m < 100
  {
    Pad2(h) + ":" + Pad2(m)
  }

  lemma SplitClock(h: nat, m: nat)
    requires h < 100 && m < 100
    ensures Split(RenderClock(h, m), ':') == [Pad2(h), Pad2(m)]
    ensures '-' !in RenderClock(h, m)
  {
    DigitsHaveNo(Pad2(h), ':');
    DigitsHaveNo(Pad2(m), ':');
    DigitsHaveNo(Pad2(h), '-');
    DigitsHaveNo(Pad2(m), '-');
    SplitCons(Pad2(h), ':', Pad2(m));
    SplitNone(Pad2(m), ':');
  }

  lemma ExamFieldsRender(h0: nat, m0: nat, h1: nat, m1: nat)
    requires h0 < 100 && m0 < 100 && h1 < 100 && m1 < 100
    ensures ExamFields(RenderClock(h0, m0) + "-" + RenderClock(h1, m1)) == [Pad2(h0), Pad2(m0), Pad2(h1), Pad2(m1)]
  {
    var a := RenderClock(h0, m0);
    var b := RenderClock(h1, m1);
    SplitClock(h0, m0);
    SplitClock(h1, m1);
    SplitCons(a, '-', b);
    SplitNone(b, '-');
    assert Split(a + "-" + b, '-') == [a, b];
  }

  lemma PadParses(n: nat)
    requires n < 100
    ensures ParseInt(Pad2(n)) == Some(n)
  {
    ParseIntDigits(Pad2(n));
  }

  lemma IntsOfPads(h0: nat, m0: nat, h1: nat, m1: nat)
    requires h0 < 100 && m0 < 100 && h1 < 100 && m1 < 100
    ensures IntsOf([Pad2(h0), Pad2(m0), Pad2(h1), Pad2(m1)]) == Success([h0, m0, h1, m1])
  {
    var fields := [Pad2(h0), Pad2(m0), Pad2(h1), Pad2(m1)];
    var ns: seq<int> := [h0, m0, h1, m1];
    forall i | 0 <= i < 4 ensures ParseInt(fields[i]) == Some(ns[i]) {
      PadParses(ns[i]);
    }
    IntsOfExact(fields, ns);
  }

  /** Reading back a written exam time `HH:MM-HH:MM` gives its clock span. */
  lemma ExamTimeRender(h0: nat, m0: nat, h1: nat, m1: nat)
    requires h0 < 24 && m0 < 60 && h1 < 24 && m1 < 60
    ensures ExamTime(RenderClock(h0, m0) + "-" + RenderClock(h1, m1))
      == Success(Span(Clock(h0, m0), Clock(h1, m1)))
  {
    ExamFieldsRender(h0, m0, h1, m1);
    IntsOfPads(h0, m0, h1, m1);
  }

  /** `08:00-10:00` is the span from eight to ten. */
  lemma ExamTimeExample()
    ensures ExamTime("08:00-10:00") == Success(Span(Clock(8, 0), Clock(10, 0)))
  {
    ExamTimeRender(8, 0, 10, 0);
    assert Pad2(8) == "08" && Pad2(0) == "00" && Pad2(10) == "10";
    assert RenderClock(8, 0) + "-" + RenderClock(10, 0) == "08:00-10:00";
  }

  // ----------------------------------------------------------- parsers

  const ExchangeCodeUrl := "http://jw.hitsz.edu.cn/byyfile"

  /** The first line of a lesson note that carries an exchange code. */
  const ExchangeCodeHeading := "【课程交流码】"

  /** The record's own note text; a missing one reads as empty. */
  function NoteText(rec: KbRecord): string {
    match rec.kcwzsm
    case Some(t) => t
    case None => ""
  }

  /** The note of a lesson: empty without an attachment; otherwise three
      lines, the heading, the exchange-code link and the record's note text. */
  function LessonDescription(rec: KbRecord): (r: string)
    ensures r == "" <==> rec.fileUrl.None?
    ensures rec.fileUrl.Some? ==>
      var link := ExchangeCodeUrl + rec.fileUrl.value;
      '\n' !in link && '\n' !in NoteText(rec) ==>
        Split(r, '\n') == [ExchangeCodeHeading, link, NoteText(rec)]
  {
    match rec.fileUrl
    case None => ""
    case Some(url) =>
      var link := ExchangeCodeUrl + url;
      var note := NoteText(rec);
      var r := ExchangeCodeHeading + "\n" + link + "\n" + note;
      if '\n' !in link && '\n' !in note then
        assert r == ExchangeCodeHeading + ['\n'] + (link + ['\n'] + note);
        assert '\n' !in ExchangeCodeHeading;
        SplitNone(note, '\n');
        SplitCons(link, '\n', note);
        SplitCons(ExchangeCodeHeading, '\n', link + ['\n'] + note);
        r
      else r
  }

  /** Weekly recurrence of a lesson or lab: its week list and the key's weekday. */
  function WeeklyDates(weeksText: string, key: string): (r: Result<ScheduledDates>)
    ensures r.Success? <==> ParseScheduledWeeks(weeksText).Success? && ParseDayOfWeek(key).Success?
    ensures r.Success? ==>
      && r.value == ScheduledDates(ParseScheduledWeeks(weeksText).value, ParseDayOfWeek(key).value)
      && 1 <= r.value.dayOfWeek <= 7
    ensures r.Failure? && ParseScheduledWeeks(weeksText).Failure? ==> r.error == ParseScheduledWeeks(weeksText).error
    ensures r.Failure? && ParseScheduledWeeks(weeksText).Success? ==> r.error == ParseDayOfWeek(key).error
  {
    var weeks :- ParseScheduledWeeks(weeksText);
    var dow :- ParseDayOfWeek(key);
    Success(ScheduledDates(weeks, dow))
  }

  /** The clock spans a lesson or lab cell occupies: its period ranges
      (`determine_time_slot_ranges` with the key's seventh character) mapped
      through the period table. */
  function CellSpans(slots: Option<string>, key: string): (r: Result<seq<Span>>)
    ensures |key| < 7 ==> r == Failure(IndexError)
    ensures r.Success? ==>
      && |key| >= 7
      && DetermineSlotRanges(slots, [key[6]]).Success?
      && SlotSpans(DetermineSlotRanges(slots, [key[6]]).value) == Success(r.value)
    ensures |key| >= 7 && DetermineSlotRanges(slots, [key[6]]).Failure? ==>
      r.Failure? && r.error.ValueError?
    ensures |key| >= 7 && DetermineSlotRanges(slots, [key[6]]).Success? ==>
      var spans := SlotSpans(DetermineSlotRanges(slots, [key[6]]).value);
      (r.Failure? <==> spans.Failure?) && (r.Failure? ==> r.error == KeyError)
  {
    var k :- KeyChar(key, 6);
    var ranges :- DetermineSlotRanges(slots, k);
    SlotSpans(ranges)
  }

  /** `parse_lesson` after the pattern matched: a weekly lesson of the
      matched name, teacher and location. */
  function ParseLesson(rec: KbRecord, g: Option<LessonGroups>): (r: Result<Option<Entry>>)
    ensures g.None? ==> r == Success(None)
    ensures g.Some? && r.Success? ==>
      && r.value.Some?
      && var e := r.value.value;
         && e.kind == Lesson && e.dates.Weekly?
         && e.name == g.value.name && e.teacher == g.value.teacher && e.location == g.value.location
         && CellSpans(g.value.slots, rec.key) == Success(e.timeRanges)
         && WeeklyDates(g.value.weeks, rec.key) == Success(e.dates.sd)
         && e.description == LessonDescription(rec)
    ensures g.Some? ==>
      var spans := CellSpans(g.value.slots, rec.key);
      var dates := WeeklyDates(g.value.weeks, rec.key);
      && (r.Success? <==> spans.Success? && dates.Success?)
      && (r.Failure? ==> r.error == if spans.Failure? then spans.error else dates.error)
  {
    match g
    case None => Success(None)
    case Some(lg) =>
      var spans :- CellSpans(lg.slots, rec.key);
      var sd :- WeeklyDates(lg.weeks, rec.key);
      Success(Some(Entry(lg.name, Weekly(sd), spans, lg.location, Lesson, lg.teacher, LessonDescription(rec), Some(""))))
  }

  /** `parse_lab` after the pattern matched: a weekly lab of the matched
      course and lab name, without teacher or note. */
  function ParseLab(rec: KbRecord, g: Option<LabGroups>): (r: Result<Option<Entry>>)
    ensures g.None? ==> r == Success(None)
    ensures g.Some? && r.Success? ==>
      && r.value.Some?
      && var e := r.value.value;
         && e.kind == Lab && e.dates.Weekly?
         && e.name == g.value.course && e.labName == g.value.labName && e.location == g.value.location
         && e.teacher == "" && e.description == ""
         && CellSpans(Some(g.value.slots), rec.key) == Success(e.timeRanges)
         && WeeklyDates(g.value.weeks, rec.key) == Success(e.dates.sd)
    ensures g.Some? ==>
      var spans := CellSpans(Some(g.value.slots), rec.key);
      var dates := WeeklyDates(g.value.weeks, rec.key);
      && (r.Success? <==> spans.Success? && dates.Success?)
      && (r.Failure? ==> r.error == if spans.Failure? then spans.error else dates.error)
  {
    match g
    case None => Success(None)
    case Some(lg) =>
      var spans :- CellSpans(Some(lg.slots), rec.key);
      var sd :- WeeklyDates(lg.weeks, rec.key);
      Success(Some(Entry(lg.course, Weekly(sd), spans, lg.location, Lab, "", "", lg.labName)))
  }

  /** `parse_exam` after the pattern matched: a one-off exam on the date
      anchored by `rule`, with the one clock span of its time text. The time
      is read before the date, so a bad time wins over a bad date. */
  function ParseExam(g: Option<ExamGroups>, d0: Date, rule: DateRule): (r: Result<Option<Entry>>)
    requires Valid(d0)
    ensures g.None? ==> r == Success(None)
    ensures g.Some? && r.Success? ==>
      && r.value.Some?
      && var e := r.value.value;
         && e.kind == Exam && e.dates.Fixed?
         && e.name == g.value.name && e.location == g.value.location
         && AnchorDate(rule, g.value.date, d0) == Success(e.dates.date)
         && ExamTime(g.value.time).Success? && e.timeRanges == [ExamTime(g.value.time).value]
    ensures g.Some? && r.Failure? ==>
      || (ExamTime(g.value.time).Failure? && r.error == ExamTime(g.value.time).error)
      || (ExamTime(g.value.time).Success? && AnchorDate(rule, g.value.date, d0).Failure?
          && r.error == AnchorDate(rule, g.value.date, d0).error)
  {
    match g
    case None => Success(None)
    case Some(eg) =>
      var span :- ExamTime(eg.time);
      var date :- AnchorDate(rule, eg.date, d0);
      Success(Some(Entry(eg.name, Fixed(date), [span], eg.location, Exam, "", "", Some(""))))
  }

  /** The decoder chain: exam, then lab, then lesson; the first parser that
      recognises the record decides, and an exception stops the chain. */
  function DecodeRecord(rec: KbRecord, d0: Date, m: Matcher, rule: DateRule): (r: Result<Option<Entry>>)
    requires Valid(d0)
    ensures m.exam(rec.sksj).Some? ==> r == ParseExam(m.exam(rec.sksj), d0, rule)
    ensures m.exam(rec.sksj).None? && m.lab(rec.sksj).Some? ==> r == ParseLab(rec, m.lab(rec.sksj))
    ensures m.exam(rec.sksj).None? && m.lab(rec.sksj).None? ==> r == ParseLesson(rec, m.lesson(rec.sksj))
  {
    var exam :- ParseExam(m.exam(rec.sksj), d0, rule);
    if exam.Some? then Success(exam)
    else
      var lab :- ParseLab(rec, m.lab(rec.sksj));
      if lab.Some? then Success(lab)
      else ParseLesson(rec, m.lesson(rec.sksj))
  }

  /** Priority: an exam-shaped record decodes to an exam or raises; a
      lab-shaped record that is not exam-shaped decodes to a lab or raises,
      never to a lesson; only a record matching neither can become a lesson,
      and a record matching none is not recognised. */
  lemma DecodePriority(rec: KbRecord, d0: Date, m: Matcher, rule: DateRule)
    requires Valid(d0)
    ensures var r := DecodeRecord(rec, d0, m, rule);
      && (m.exam(rec.sksj).Some? && r.Success? ==> r.value.Some? && r.value.value.kind == Exam)
      && (m.exam(rec.sksj).None? && m.lab(rec.sksj).Some? && r.Success? ==>
            r.value.Some? && r.value.value.kind == Lab)
      && (r.Success? && r.value.Some? && r.value.value.kind == Lesson ==>
            m.exam(rec.sksj).None? && m.lab(rec.sksj).None? && m.lesson(rec.sksj).Some?)
      && (m.exam(rec.sksj).None? && m.lab(rec.sksj).None? && m.lesson(rec.sksj).None? ==>
            r == Success(None))
  {
  }

  // ------------------------------------------------------------ alarms

  const MinutesPerDay := 24 * 60

  /** `get_ics_alarms`: reminder offsets in minutes relative to the start. */
  function Alarms(kind: Kind): (r: seq<int>)
    ensures |r| >= 2
    ensures forall i :: 0 <= i < |r| ==> r[i] < 0
    ensures forall i, j :: 0 <= i < j < |r| ==> r[i] != r[j]
    ensures kind == Lab ==> r[0] <= -2 * MinutesPerDay
    ensures kind != Lab ==> forall i :: 0 <= i < |r| ==> r[i] > -MinutesPerDay
    ensures -15 in r <==> kind != Exam
    ensures -30 in r
    ensures |r| == if kind == Lesson then 2 else 3
    ensures (set x | x in r) ==
      if kind == Lab then {-2 * MinutesPerDay, -30, -15}
      else if kind == Lesson then {-15, -30}
      else {-30, -60, -120}
  {
    match kind
    case Lab => [-2 * MinutesPerDay, -30, -15]
    case Lesson => [-15, -30]
    case Exam => [-30, -60, -120]
  }

  // ----------------------------------------------------- occurrences

  /** One calendar event: its day ordinal and clock span. */
  datatype Occurrence = Occurrence(day: int, start: int, end: int)

  predicate WellDated(e: Entry) {
    e.dates.Fixed? ==> Valid(e.dates.date)
  }

  /** The day ordinals an entry happens on. */
  function EntryDays(e: Entry, start: Date): (r: seq<int>)
    requires Valid(start) && WellDated(e)
    ensures e.dates.Fixed? ==> r == [ToOrdinal(e.dates.date)]
    ensures e.dates.Weekly? ==> r == AllDates(e.dates.sd, start)
  {
    match e.dates
    case Fixed(d) => [ToOrdinal(d)]
    case Weekly(sd) => AllDates(sd, start)
  }

  /** Position `k` of `r` exists and holds `o`. */
  predicate HasAt(r: seq<Occurrence>, k: int, o: Occurrence) {
    0 <= k < |r| && r[k] == o
  }

  function Expansion(ranges: seq<Span>, days: seq<int>): (r: seq<Occurrence>)
    ensures |r| == |ranges| * |days|
    ensures forall i, j | 0 <= i < |ranges| && 0 <= j < |days| ::
      HasAt(r, i * |days| + j, Occurrence(days[j], ranges[i].start, ranges[i].end))
    ensures forall o :: o in r <==>
      exists i, j :: 0 <= i < |ranges| && 0 <= j < |days| && o == Occurrence(days[j], ranges[i].start, ranges[i].end)
    decreases |ranges|
  {
    if |ranges| == 0 then []
    else
      var first := seq(|days|, j requires 0 <= j < |days| => Occurrence(days[j], ranges[0].start, ranges[0].end));
      var rest := Expansion(ranges[1..], days);
      assert |ranges| * |days| == |days| + (|ranges| - 1) * |days|;
      RowThenRestMembers(ranges, days, first, rest);
      RowThenRest(ranges, days, first, rest);
      first + rest
  }

  /** The events of the first time range and those of the others are
      together the events of every (range, date) pair. */
  lemma RowThenRestMembers(ranges: seq<Span>, days: seq<int>, first: seq<Occurrence>, rest: seq<Occurrence>)
    requires |ranges| > 0 && |first| == |days|
    requires forall j | 0 <= j < |days| :: first[j] == Occurrence(days[j], ranges[0].start, ranges[0].end)
    requires forall o :: o in rest <==>
      exists i, j :: 0 <= i < |ranges[1..]| && 0 <= j < |days| && o == Occurrence(days[j], ranges[1..][i].start, ranges[1..][i].end)
    ensures forall o :: o in first + rest <==>
      exists i, j :: 0 <= i < |ranges| && 0 <= j < |days| && o == Occurrence(days[j], ranges[i].start, ranges[i].end)
  {
    forall o | o in rest
      ensures exists i, j :: 0 <= i < |ranges| && 0 <= j < |days| && o == Occurrence(days[j], ranges[i].start, ranges[i].end)
    {
      var i, j :| 0 <= i < |ranges| - 1 && 0 <= j < |days| && o == Occurrence(days[j], ranges[1..][i].start, ranges[1..][i].end);
      assert o == Occurrence(days[j], ranges[i + 1].start, ranges[i + 1].end);
    }
    forall o | exists i, j :: 0 <= i < |ranges| && 0 <= j < |days| && o == Occurrence(days[j], ranges[i].start, ranges[i].end)
      ensures o in first + rest
    {
      var i, j :| 0 <= i < |ranges| && 0 <= j < |days| && o == Occurrence(days[j], ranges[i].start, ranges[i].end);
      if i == 0 {
        assert first[j] == o;
      } else {
        assert o == Occurrence(days[j], ranges[1..][i - 1].start, ranges[1..][i - 1].end);
      }
    }
  }

  /** The events of the first time range come first, one per date in date
      order, and then those of the other ranges at the positions they had. */
  lemma RowThenRest(ranges: seq<Span>, days: seq<int>, first: seq<Occurrence>, rest: seq<Occurrence>)
    requires |ranges| > 0 && |first| == |days|
    requires forall j | 0 <= j < |days| :: first[j] == Occurrence(days[j], ranges[0].start, ranges[0].end)
    requires forall i, j | 0 <= i < |ranges[1..]| && 0 <= j < |days| ::
      HasAt(rest, i * |days| + j, Occurrence(days[j], ranges[1..][i].start, ranges[1..][i].end))
    ensures forall i, j | 0 <= i < |ranges| && 0 <= j < |days| ::
      HasAt(first + rest, i * |days| + j, Occurrence(days[j], ranges[i].start, ranges[i].end))
  {
    forall i, j | 0 <= i < |ranges| && 0 <= j < |days|
      ensures HasAt(first + rest, i * |days| + j, Occurrence(days[j], ranges[i].start, ranges[i].end))
    {
      if i > 0 {
        var k := i - 1;
        assert HasAt(rest, k * |days| + j, Occurrence(days[j], ranges[1..][k].start, ranges[1..][k].end));
        assert i * |days| + j == |days| + (k * |days| + j);
      }
    }
  }

  /** A repeated date gives a repeated event: each (range, date) pair is its
      own event, even when two pairs look alike. */
  lemma ExpansionRepeatedDay()
    ensures Expansion([Span(0, 10)], [1, 1, 2])
      == [Occurrence(1, 0, 10), Occurrence(1, 0, 10), Occurrence(2, 0, 10)]
  {
    var r := Expansion([Span(0, 10)], [1, 1, 2]);
    assert HasAt(r, 0 * 3 + 0, Occurrence(1, 0, 10));
    assert HasAt(r, 0 * 3 + 1, Occurrence(1, 0, 10));
    assert HasAt(r, 0 * 3 + 2, Occurrence(2, 0, 10));
  }

  /** `to_ics_event`: one event per time range and date, range by range;
      every (range, date) pair gives an event and nothing else does. */
  function ToIcsEvent(e: Entry, start: Date): (r: seq<Occurrence>)
    requires Valid(start) && WellDated(e)
    ensures |r| == |e.timeRanges| * |EntryDays(e, start)|
    ensures forall i, j | 0 <= i < |e.timeRanges| && 0 <= j < |EntryDays(e, start)| ::
      HasAt(r, i * |EntryDays(e, start)| + j, Occurrence(EntryDays(e, start)[j], e.timeRanges[i].start, e.timeRanges[i].end))
    ensures forall o :: o in r <==>
      exists i, j :: 0 <= i < |e.timeRanges| && 0 <= j < |EntryDays(e, start)|
        && o == Occurrence(EntryDays(e, start)[j], e.timeRanges[i].start, e.timeRanges[i].end)
  {
    Expansion(e.timeRanges, EntryDays(e, start))
  }

  // ------------------------------------------------------------ overlap

  /** Two clock spans overlap: `max(s1, s2) < min(e1, e2)`. */
  predicate Overlap(a: Span, b: Span) {
    (if a.start > b.start then a.start else b.start) < (if a.end < b.end then a.end else b.end)
  }

  /** `overlaps_with`: some time range of the entry overlaps the span. */
  function OverlapsWith(ranges: seq<Span>, span: Span): (r: bool)
    ensures r <==> exists i :: 0 <= i < |ranges| && Overlap(ranges[i], span)
    decreases |ranges|
  {
    if |ranges| == 0 then false
    else if Overlap(ranges[0], span) then true
    else
      var rest := OverlapsWith(ranges[1..], span);
      assert rest ==> exists i :: 0 <= i < |ranges| && Overlap(ranges[i], span) by {
        if rest {
          var i :| 0 <= i < |ranges| - 1 && Overlap(ranges[1..][i], span);
          assert Overlap(ranges[i + 1], span);
        }
      }
      assert (exists i :: 0 <= i < |ranges| && Overlap(ranges[i], span)) ==> rest by {
        if exists i :: 0 <= i < |ranges| && Overlap(ranges[i], span) {
          var i :| 0 <= i < |ranges| && Overlap(ranges[i], span);
          assert i != 0;
          assert Overlap(ranges[1..][i - 1], span);
        }
      }
      rest
  }

  /** Minute `t` lies in the span. */
  predicate Within(t: int, s: Span) {
    s.start <= t < s.end
  }

  /** Two spans overlap exactly when some minute lies in both; so the test
      is symmetric and spans that only touch (`e1 == s2`) do not overlap. */
  lemma OverlapMeaning(a: Span, b: Span)
    ensures Overlap(a, b) <==> exists t :: Within(t, a) && Within(t, b)
    ensures Overlap(a, b) <==> Overlap(b, a)
    ensures a.end == b.start || b.end == a.start ==> !Overlap(a, b)
  {
    if Overlap(a, b) {
      var t := if a.start > b.start then a.start else b.start;
      assert Within(t, a) && Within(t, b);
    }
  }
}

=== FILE: examdate.dfy ===
/** Anchoring an exam date written as month and day (`3月1日`) to a year,
    relative to the semester start date. */
module ExamDate {
  import opened Results
  import opened PyText
  import opened Calendar

  /** The month/day pattern at the start of the text: a run of digits, `月`,
      a run of digits, `日`; gives the two digit runs, or nothing. */
  function MonthDay(text: string): (r: Option<(string, string)>)
    ensures r.Some? ==>
      && |r.value.0| > 0 && AllDigits(r.value.0)
      && |r.value.1| > 0 && AllDigits(r.value.1)
      && |r.value.0 + "月" + r.value.1 + "日"| <= |text|
      && text[..|r.value.0 + "月" + r.value.1 + "日"|] == r.value.0 + "月" + r.value.1 + "日"
  {
    var ms := LeadingDigits(text);
    if |ms| == 0 || |ms| >= |text| || text[|ms|] != '月' then None
    else
      var rest := text[|ms| + 1..];
      var ds := LeadingDigits(rest);
      if |ds| == 0 || |ds| >= |rest| || rest[|ds|] != '日' then None
      else
        assert text[..|ms + "月" + ds + "日"|] == ms + "月" + ds + "日";
        Some((ms, ds))
  }

  /** Every text of the shape `<digits>月<digits>日…` is recognised, with exactly
      those digits: the pattern misses nothing. */
  lemma MonthDayComplete(ms: string, ds: string, rest: string)
    requires |ms| > 0 && AllDigits(ms) && |ds| > 0 && AllDigits(ds)
    ensures MonthDay(ms + "月" + ds + "日" + rest) == Some((ms, ds))
  {
    var text := ms + "月" + ds + "日" + rest;
    assert text == ms + ['月'] + (ds + "日" + rest);
    LeadingDigitsOf(ms, '月', ds + "日" + rest);
    var after := text[|ms| + 1..];
    assert after == ds + ['日'] + rest;
    LeadingDigitsOf(ds, '日', rest);
  }

  function MonthOf(md: (string, string)): int
    requires AllDigits(md.0)
  {
    DigitsValue(md.0)
  }

  function DayOf(md: (string, string)): int
    requires AllDigits(md.1)
  {
    DigitsValue(md.1)
  }

  /** `_parse_date` as written: it builds the date in the start year first,
      so a month/day that does not exist in that year raises even when the
      following year has it. */
  function ParseDateAsWritten(text: string, d0: Date): (r: Result<Date>)
    requires Valid(d0)
    ensures r.Failure? ==> r.error.ValueError?
    ensures r.Success? ==> MonthDay(text).Some?
    ensures r.Success? ==>
      var md := MonthDay(text).value;
      var same := Date(d0.year, MonthOf(md), DayOf(md));
      && Valid(r.value) && !Before(r.value, d0)
      && r.value.month == MonthOf(md) && r.value.day == DayOf(md)
      && Valid(same)
      && (r.value.year == d0.year <==> !Before(same, d0))
      && (r.value.year == d0.year || r.value.year == d0.year + 1)
    ensures r.Success? <==>
      && MonthDay(text).Some?
      && var md := MonthDay(text).value;
         var same := Date(d0.year, MonthOf(md), DayOf(md));
         Valid(same) && (!Before(same, d0) || Valid(Date(d0.year + 1, MonthOf(md), DayOf(md))))
  {
    match MonthDay(text)
    case None => Failure(ValueError(NoMonthDay(text)))
    case Some(md) =>
      var m := MonthOf(md);
      var d := DayOf(md);
      var date :- MakeDate(d0.year, m, d);
      if Before(date, d0) then MakeDate(d0.year + 1, m, d) else Success(date)
  }

  /** A date with the given month and day that lies on or after `d0`. */
  predicate Candidate(x: Date, m: int, d: int, d0: Date) {
    Valid(x) && x.month == m && x.day == d && !Before(x, d0)
  }

  /** `_parse_date` as evidently intended. The anchored date carries the
      written month and day, lies in the start year or the next, is never
      before the start, keeps the start year exactly when that year's date
      exists and is not before the start, and is the earliest such date; it
      fails only when the text has no month/day or neither year has a
      suitable date. */
  function ParseDate(text: string, d0: Date): (r: Result<Date>)
    requires Valid(d0)
    ensures r.Failure? ==> r.error.ValueError?
    ensures r.Success? ==> MonthDay(text).Some?
    ensures r.Success? ==>
      var md := MonthDay(text).value;
      var m := MonthOf(md);
      var d := DayOf(md);
      && Candidate(r.value, m, d, d0)
      && (r.value.year == d0.year || r.value.year == d0.year + 1)
      && (r.value.year == d0.year <==> Candidate(Date(d0.year, m, d), m, d, d0))
      && forall x :: Candidate(x, m, d, d0) ==> !Before(x, r.value)
    ensures r.Failure? <==>
      || MonthDay(text).None?
      || var md := MonthDay(text).value;
         && !Candidate(Date(d0.year, MonthOf(md), DayOf(md)), MonthOf(md), DayOf(md), d0)
         && !Valid(Date(d0.year + 1, MonthOf(md), DayOf(md)))
  {
    match MonthDay(text)
    case None => Failure(ValueError(NoMonthDay(text)))
    case Some(md) =>
      var m := MonthOf(md);
      var d := DayOf(md);
      var same := Date(d0.year, m, d);
      var next := Date(d0.year + 1, m, d);
      if Valid(same) && !Before(same, d0) then Success(same)
      else if Valid(next) then Success(next)
      else if Valid(same) then Failure(ValueError(InvalidDate(next.year, m, d)))
      else Failure(ValueError(InvalidDate(d0.year, m, d)))
  }

  /** Where the as-written parser answers, it answers as intended; the two
      differ only when the month/day does not exist in the start year but
      does in the next. */
  lemma AsWrittenAgrees(text: string, d0: Date)
    requires Valid(d0)
    ensures ParseDateAsWritten(text, d0).Success? ==> ParseDate(text, d0) == ParseDateAsWritten(text, d0)
    ensures ParseDateAsWritten(text, d0) != ParseDate(text, d0) ==>
      var md := MonthDay(text).value;
      && MonthDay(text).Some?
      && !Valid(Date(d0.year, MonthOf(md), DayOf(md)))
      && Valid(Date(d0.year + 1, MonthOf(md), DayOf(md)))
  {
  }

  /** Which `_parse_date` an exam record is decoded with: the code as
      written, or the corrected definition. */
  datatype DateRule = AsWritten | Corrected

  /** The exam date under the chosen rule; either way a failure is a
      `ValueError`, and both agree wherever the as-written one answers. */
  function AnchorDate(rule: DateRule, text: string, d0: Date): (r: Result<Date>)
    requires Valid(d0)
    ensures r.Failure? ==> r.error.ValueError?
    ensures ParseDateAsWritten(text, d0).Success? ==> r == ParseDateAsWritten(text, d0)
  {
    AsWrittenAgrees(text, d0);
    if rule.AsWritten? then ParseDateAsWritten(text, d0) else ParseDate(text, d0)
  }

  /** The discrepancy: with a semester starting 2023-09-01, `2月29日` raises
      as written, though 2024-02-29 is the date meant. */
  lemma LeapDayCounterexample()
    ensures ParseDateAsWritten("2月29日", Date(2023, 9, 1)).Failure?
    ensures ParseDate("2月29日", Date(2023, 9, 1)) == Success(Date(2024, 2, 29))
  {
    MonthDayComplete("2", "29", "");
    assert "2" + "月" + "29" + "日" + "" == "2月29日";
    assert DigitsValue("29") == 10 * DigitsValue("2") + 9;
  }

  /** The same text under the two rules. */
  lemma LeapDayAnchors()
    ensures AnchorDate(Corrected, "2月29日", Date(2023, 9, 1)) == Success(Date(2024, 2, 29))
    ensures AnchorDate(AsWritten, "2月29日", Date(2023, 9, 1)).Failure?
    ensures AnchorDate(AsWritten, "2月29日", Date(2023, 9, 1)).error.ValueError?
  {
    LeapDayCounterexample();
  }

  /** Year roll-over: an exam on `3月1日` in a semester starting 2025-09-01
      falls in 2026. */
  lemma RolloverExample()
    ensures ParseDate("3月1日", Date(2025, 9, 1)) == Success(Date(2026, 3, 1))
  {
    MonthDayComplete("3", "1", "");
    assert "3" + "月" + "1" + "日" + "" == "3月1日";
  }
}

=== FILE: periods.dfy ===
/** Class periods: the fixed period-to-clock table, period-range text such
    as `1-4,6,8-10`, and the rule that picks the periods of one timetable cell. */
module Periods {
  import opened Results
  import opened PyText

  /** A clock-time interval in minutes since midnight, `[start, end)`. */
  datatype Span = Span(start: int, end: int)

  /** A range of periods `(first, last)`, as `_to_range` returns it. */
  datatype SlotRange = SlotRange(first: int, last: int)

  function Clock(h: int, m: int): int {
    60 * h + m
  }

  /** `time_slot_mapping`: period number to its clock span. */
  const SlotTable: map<int, Span> := map[
    1 := Span(Clock(8, 30), Clock(9, 20)),
    2 := Span(Clock(9, 25), Clock(10, 15)),
    3 := Span(Clock(10, 30), Clock(11, 20)),
    4 := Span(Clock(11, 25), Clock(12, 15)),
    5 := Span(Clock(14, 0), Clock(14, 50)),
    6 := Span(Clock(14, 55), Clock(15, 45)),
    7 := Span(Clock(16, 0), Clock(16, 50)),
    8 := Span(Clock(16, 55), Clock(17, 45)),
    9 := Span(Clock(18, 45), Clock(19, 35)),
    10 := Span(Clock(19, 40), Clock(20, 30)),
    11 := Span(Clock(20, 45), Clock(21, 35)),
    12 := Span(Clock(21, 40), Clock(22, 30))
  ]

  /** The table covers periods 1..12; every period is a non-empty span inside
      the day, and each period ends before any later one starts. */
  lemma SlotTableShape()
    ensures forall p :: p in SlotTable <==> 1 <= p <= 12
    ensures forall p :: p in SlotTable ==>
      0 <= SlotTable[p].start < SlotTable[p].end <= Clock(24, 0)
    ensures forall p, q :: p in SlotTable && q in SlotTable && p < q ==>
      SlotTable[p].end < SlotTable[q].start
  {
  }

  // ------------------------------------------------------------ _to_range(s)

  /** Every piece read as an integer, left to right;
      the first piece that is not one raises. */
  predicate AllInts(ps: seq<string>) {
    forall i :: 0 <= i < |ps| ==> ParseInt(ps[i]).Some?
  }

  function IntsOf(ps: seq<string>): (r: Result<seq<int>>)
    ensures r.Success? <==> AllInts(ps)
    ensures r.Success? ==>
      && |r.value| == |ps|
      && forall i :: 0 <= i < |ps| ==> r.value[i] == ParseInt(ps[i]).value
    ensures r.Failure? ==>
      exists i :: && 0 <= i < |ps| && ParseInt(ps[i]).None?
                  && (forall j :: 0 <= j < i ==> ParseInt(ps[j]).Some?)
                  && r.error == ValueError(NotAnInteger(ps[i]))
    decreases |ps|
  {
    if |ps| == 0 then Success([])
    else
      var h :- ToInt(ps[0]);
      var t :- IntsOf(ps[1..]);
      Success([h] + t)
  }

  /** Pieces that each read as the given number read as that list. */
  lemma {:induction false} IntsOfExact(ps: seq<string>, ns: seq<int>)
    requires |ps| == |ns|
    requires forall i :: 0 <= i < |ps| ==> ParseInt(ps[i]) == Some(ns[i])
    ensures IntsOf(ps) == Success(ns)
    decreases |ps|
  {
    if |ps| > 0 {
      IntsOfExact(ps[1..], ns[1..]);
      assert [ns[0]] + ns[1..] == ns;
    }
  }

  /** `_to_range`: the first and the last number of a `-`-separated text. */
  function ToRange(text: string): (r: Result<SlotRange>)
    ensures r.Failure? ==> r.error.ValueError?
    ensures r.Success? <==> AllInts(Split(text, '-'))
    ensures r.Success? ==>
      var ps := Split(text, '-');
      r.value == SlotRange(ParseInt(ps[0]).value, ParseInt(ps[|ps| - 1]).value)
    ensures r.Failure? ==>
      var ps := Split(text, '-');
      exists i :: && 0 <= i < |ps| && ParseInt(ps[i]).None?
                  && (forall j :: 0 <= j < i ==> ParseInt(ps[j]).Some?)
                  && r.error == ValueError(NotAnInteger(ps[i]))
  {
    var items :- IntsOf(Split(text, '-'));
    Success(SlotRange(items[0], items[|items| - 1]))
  }

  /** Every piece is a range (checked front to back, as the comprehension does). */
  predicate AllRanges(ps: seq<string>)
    decreases |ps|
  {
    |ps| == 0 || (ToRange(ps[0]).Success? && AllRanges(ps[1..]))
  }

  function RangesOf(ps: seq<string>): (r: Result<seq<SlotRange>>)
    ensures r.Success? <==> AllRanges(ps)
    ensures r.Success? ==>
      && |r.value| == |ps|
      && forall i :: 0 <= i < |ps| ==> ToRange(ps[i]).Success? && r.value[i] == ToRange(ps[i]).value
    ensures r.Failure? ==> r.error.ValueError?
    decreases |ps|
  {
    if |ps| == 0 then Success([])
    else
      var h :- ToRange(ps[0]);
      var t :- RangesOf(ps[1..]);
      Success([h] + t)
  }

  /** Pieces that each read as the given range read as that list. */
  lemma {:induction false} RangesOfExact(ps: seq<string>, rs: seq<SlotRange>)
    requires |ps| == |rs|
    requires forall i :: 0 <= i < |ps| ==> ToRange(ps[i]) == Success(rs[i])
    ensures RangesOf(ps) == Success(rs)
    decreases |ps|
  {
    if |ps| > 0 {
      forall i | 0 <= i < |ps| - 1 ensures ToRange(ps[1..][i]) == Success(rs[1..][i]) {
        assert ps[1..][i] == ps[i + 1];
      }
      RangesOfExact(ps[1..], rs[1..]);
      assert ToRange(ps[0]) == Success(rs[0]);
      assert [rs[0]] + rs[1..] == rs;
    }
  }

  /** `_to_ranges`: one range per `,`-separated piece, in order. */
  function ToRanges(text: string): (r: Result<seq<SlotRange>>)
    ensures r.Success? ==> |r.value| == |Split(text, ',')| >= 1
    ensures r.Success? <==> AllRanges(Split(text, ','))
    ensures r.Failure? ==> r.error.ValueError?
  {
    RangesOf(Split(text, ','))
  }

  // ------------------------------------------------------- rendering

  /** How the portal writes a range: `a-b`, or just `a` for a single period. */
  function RenderRange(r: SlotRange): string
    requires r.first >= 0 && r.last >= 0
  {
    if r.first == r.last then NatToString(r.first)
    else NatToString(r.first) + "-" + NatToString(r.last)
  }

  predicate NonNegative(rs: seq<SlotRange>) {
    forall i :: 0 <= i < |rs| ==> rs[i].first >= 0 && rs[i].last >= 0
  }

  function RenderPieces(rs: seq<SlotRange>): (ps: seq<string>)
    requires NonNegative(rs)
    ensures |ps| == |rs|
    ensures forall i :: 0 <= i < |rs| ==> ps[i] == RenderRange(rs[i])
  {
    seq(|rs|, i requires 0 <= i < |rs| => RenderRange(rs[i]))
  }

  function RenderRanges(rs: seq<SlotRange>): string
    requires |rs| >= 1 && NonNegative(rs)
  {
    Join(RenderPieces(rs), ',')
  }

  /** Reading a rendered range gives back the range. */
  lemma ToRangeRender(r: SlotRange)
    requires r.first >= 0 && r.last >= 0
    ensures ToRange(RenderRange(r)) == Success(r)
    ensures ',' !in RenderRange(r)
  {
    var a := NatToString(r.first);
    var b := NatToString(r.last);
    ParseIntNatToString(r.first);
    ParseIntNatToString(r.last);
    DigitsHaveNo(a, '-');
    DigitsHaveNo(b, '-');
    DigitsHaveNo(a, ',');
    DigitsHaveNo(b, ',');
    if r.first == r.last {
      SplitNone(a, '-');
    } else {
      SplitCons(a, '-', b);
      SplitNone(b, '-');
      assert Split(a + "-" + b, '-') == [a, b];
    }
  }

  /** `_to_ranges` inverts the rendering of any non-empty list of ranges. */
  lemma ToRangesRender(rs: seq<SlotRange>)
    requires |rs| >= 1 && NonNegative(rs)
    ensures ToRanges(RenderRanges(rs)) == Success(rs)
  {
    var ps := RenderPieces(rs);
    forall i | 0 <= i < |rs|
      ensures ToRange(ps[i]) == Success(rs[i]) && ',' !in ps[i]
    {
      ToRangeRender(rs[i]);
    }
    SplitJoin(ps, ',');
    assert Split(RenderRanges(rs), ',') == ps;
    RangesOfExact(ps, rs);
  }

  /** The documented example: `'1-4,6,8-10'` reads as `[(1, 4), (6, 6), (8, 10)]`. */
  lemma ToRangesExample()
    ensures ToRanges("1-4,6,8-10") == Success([SlotRange(1, 4), SlotRange(6, 6), SlotRange(8, 10)])
  {
    var rs := [SlotRange(1, 4), SlotRange(6, 6), SlotRange(8, 10)];
    ToRangesRender(rs);
    ExampleRendering();
  }

  lemma ExampleRendering()
    ensures RenderRanges([SlotRange(1, 4), SlotRange(6, 6), SlotRange(8, 10)]) == "1-4,6,8-10"
  {
    var rs := [SlotRange(1, 4), SlotRange(6, 6), SlotRange(8, 10)];
    ExamplePieces();
    assert RenderPieces(rs) == ["1-4", "6", "8-10"];
    assert Join(["1-4", "6", "8-10"], ',') == "1-4,6,8-10";
  }

  lemma ExamplePieces()
    ensures RenderRange(SlotRange(1, 4)) == "1-4"
    ensures RenderRange(SlotRange(6, 6)) == "6"
    ensures RenderRange(SlotRange(8, 10)) == "8-10"
  {
    assert NatToString(10) == NatToString(1) + [DigitChar(0)] == "10";
  }

  // ------------------------------------------- determine_time_slot_ranges

  /** The two-period block a timetable cell with period digit `k` stands for. */
  predicate InBlock(p: int, k: int) {
    2 * k - 1 <= p <= 2 * k
  }

  /** `determine_time_slot_ranges`: with no explicit period list the block
      `(2k-1, 2k)`; with one, the whole list if its first range starts inside
      that block and nothing otherwise (the other cells of a multi-cell
      session repeat the same list). */
  function DetermineSlotRanges(slotInfo: Option<string>, slotKey: string): (r: Result<seq<SlotRange>>)
    ensures r.Success? <==>
      ParseInt(slotKey).Some? && (slotInfo.None? || ToRanges(slotInfo.value).Success?)
    ensures r.Success? && slotInfo.None? ==>
      var k := ParseInt(slotKey).value; r.value == [SlotRange(2 * k - 1, 2 * k)]
    ensures r.Success? && slotInfo.Some? ==>
      var k := ParseInt(slotKey).value;
      var listed := ToRanges(slotInfo.value).value;
      (InBlock(listed[0].first, k) ==> r.value == listed)
      && (!InBlock(listed[0].first, k) ==> r.value == [])
    ensures r.Failure? ==> r.error.ValueError?
  {
    var k :- ToInt(slotKey);
    if slotInfo.None? then Success([SlotRange(2 * k - 1, 2 * k)])
    else
      var ranges :- ToRanges(slotInfo.value);
      if 2 * k - 1 <= ranges[0].first <= 2 * k then Success(ranges) else Success([])
  }

  /** The continuation-cell rule: one explicit period list is kept by at most
      one of the cells (period digits) it is shown in, so a session spread
      over several cells yields its periods once. */
  lemma ContinuationCellsKeepOnce(info: string, key1: string, key2: string)
    requires ParseInt(key1).Some? && ParseInt(key2).Some?
    requires ParseInt(key1).value != ParseInt(key2).value
    ensures var r1 := DetermineSlotRanges(Some(info), key1);
            var r2 := DetermineSlotRanges(Some(info), key2);
            !(r1.Success? && r2.Success? && r1.value != [] && r2.value != [])
  {
  }

  /** A kept explicit list starts inside the cell's own block, and the block
      derived without a list is two consecutive periods. */
  lemma KeptListStartsInBlock(info: Option<string>, key: string)
    requires DetermineSlotRanges(info, key).Success?
    requires DetermineSlotRanges(info, key).value != []
    ensures InBlock(DetermineSlotRanges(info, key).value[0].first, ParseInt(key).value)
    ensures info.None? ==> DetermineSlotRanges(info, key).value[0].last
                           == DetermineSlotRanges(info, key).value[0].first + 1
  {
  }

  // ------------------------------------------------- periods to clock time

  /** The clock span of a period range, `(mapping[first].start, mapping[last].end)`;
      a period outside the table raises `KeyError`. */
  function SlotSpan(r: SlotRange): (s: Result<Span>)
    ensures s.Success? <==> r.first in SlotTable && r.last in SlotTable
    ensures s.Success? ==> s.value == Span(SlotTable[r.first].start, SlotTable[r.last].end)
    ensures s.Failure? ==> s.error == KeyError
  {
    if r.first !in SlotTable then Failure(KeyError)
    else if r.last !in SlotTable then Failure(KeyError)
    else Success(Span(SlotTable[r.first].start, SlotTable[r.last].end))
  }

  /** The clock spans of a list of period ranges, in order. */
  function SlotSpans(rs: seq<SlotRange>): (r: Result<seq<Span>>)
    ensures r.Success? <==> forall i :: 0 <= i < |rs| ==> SlotSpan(rs[i]).Success?
    ensures r.Success? ==>
      && |r.value| == |rs|
      && forall i :: 0 <= i < |rs| ==> r.value[i] == SlotSpan(rs[i]).value
    ensures r.Failure? ==> r.error == KeyError
    decreases |rs|
  {
    if |rs| == 0 then Success([])
    else
      var h :- SlotSpan(rs[0]);
      var t :- SlotSpans(rs[1..]);
      Success([h] + t)
  }

  /** A range of table periods in ascending order is a proper clock interval. */
  lemma SlotSpanProper(r: SlotRange)
    requires 1 <= r.first <= r.last <= 12
    ensures SlotSpan(r).Success?
    ensures SlotSpan(r).value.start < SlotSpan(r).value.end
  {
    SlotTableShape();
  }
}

=== FILE: pytext.dfy ===
/** The few Python string operations the schedule engine relies on:
    `str.split` with a one-character separator, `int()` on text, `str()` on
    a non-negative integer and ASCII `str.lower`. */
module PyText {
  import opened Results

  // ---------------------------------------------------------------- split

  /** `s.split(c)`: the pieces between occurrences of `c`; never empty. */
  function Split(s: string, c: char): (r: seq<string>)
    ensures |r| >= 1
    ensures forall i :: 0 <= i < |r| ==> c !in r[i]
    decreases |s|
  {
    if |s| == 0 then [""]
    else
      var rest := Split(s[1..], c);
      if s[0] == c then [""] + rest
      else [[s[0]] + rest[0]] + rest[1..]
  }

  /** `c.join(ps)`. */
  function Join(ps: seq<string>, c: char): string
    requires |ps| >= 1
    decreases |ps|
  {
    if |ps| == 1 then ps[0] else ps[0] + [c] + Join(ps[1..], c)
  }

  /** Splitting and re-joining gives back the text. */
  lemma {:induction false} JoinSplit(s: string, c: char)
    ensures Join(Split(s, c), c) == s
    decreases |s|
  {
    if |s| > 0 {
      var rest := Split(s[1..], c);
      JoinSplit(s[1..], c);
      if s[0] == c {
        assert Split(s, c)[1..] == rest;
      } else {
        var r := Split(s, c);
        if |rest| == 1 {
          assert r == [[s[0]] + rest[0]];
        } else {
          assert r[1..] == rest[1..];
          assert Join(r, c) == [s[0]] + rest[0] + [c] + Join(rest[1..], c);
        }
      }
    }
  }

  /** A separator-free piece followed by the separator splits off as one piece. */
  lemma {:induction false} SplitCons(p: string, c: char, rest: string)
    requires c !in p
    ensures Split(p + [c] + rest, c) == [p] + Split(rest, c)
    decreases |p|
  {
    if |p| == 0 {
      assert p + [c] + rest == [c] + rest;
      assert ([c] + rest)[1..] == rest;
    } else {
      var s := p + [c] + rest;
      assert s[1..] == p[1..] + [c] + rest;
      SplitCons(p[1..], c, rest);
      assert [p[0]] + p[1..] == p;
    }
  }

  /** A separator-free text is a single piece. */
  lemma {:induction false} SplitNone(p: string, c: char)
    requires c !in p
    ensures Split(p, c) == [p]
    decreases |p|
  {
    if |p| > 0 {
      SplitNone(p[1..], c);
      assert [p[0]] + p[1..] == p;
    }
  }

  /** Joining separator-free pieces and splitting again gives back the pieces. */
  lemma {:induction false} SplitJoin(ps: seq<string>, c: char)
    requires |ps| >= 1
    requires forall i :: 0 <= i < |ps| ==> c !in ps[i]
    ensures Split(Join(ps, c), c) == ps
    decreases |ps|
  {
    if |ps| == 1 {
      SplitNone(ps[0], c);
    } else {
      SplitJoin(ps[1..], c);
      SplitCons(ps[0], c, Join(ps[1..], c));
      assert [ps[0]] + ps[1..] == ps;
    }
  }

  /** Splitting distributes over a separator: the pieces of `a,b` are those of `a` then those of `b`. */
  lemma {:induction false} SplitAppend(a: string, c: char, b: string)
    ensures Split(a + [c] + b, c) == Split(a, c) + Split(b, c)
    decreases |a|
  {
    var s := a + [c] + b;
    if |a| == 0 {
      assert s == [c] + b;
      assert s[1..] == b;
    } else {
      assert s[0] == a[0];
      assert s[1..] == a[1..] + [c] + b;
      SplitAppend(a[1..], c, b);
      if a[0] != c {
        SplitAppendStep(a[0], Split(a[1..], c), Split(b, c));
      }
    }
  }

  lemma SplitAppendStep(ch: char, ra: seq<string>, rb: seq<string>)
    requires |ra| >= 1
    ensures [[ch] + (ra + rb)[0]] + (ra + rb)[1..] == ([[ch] + ra[0]] + ra[1..]) + rb
  {
    assert (ra + rb)[0] == ra[0];
    assert (ra + rb)[1..] == ra[1..] + rb;
  }

  // ------------------------------------------------------------- integers

  predicate IsDigit(ch: char) {
    '0' <= ch <= '9'
  }

  predicate AllDigits(s: string) {
    forall i :: 0 <= i < |s| ==> IsDigit(s[i])
  }

  function DigitValue(ch: char): nat
    requires IsDigit(ch)
  {
    (ch - '0') as nat
  }

  function DigitChar(n: nat): (ch: char)
    requires n < 10
    ensures IsDigit(ch) && DigitValue(ch) == n
  {
    ('0' as int + n) as char
  }

  /** The number written by a string of decimal digits. */
  function DigitsValue(s: string): nat
    requires AllDigits(s)
    decreases |s|
  {
    if |s| == 0 then 0 else 10 * DigitsValue(s[..|s| - 1]) + DigitValue(s[|s| - 1])
  }

  lemma DigitsValueSnoc(s: string, c: char)
    requires AllDigits(s) && IsDigit(c)
    ensures AllDigits(s + [c])
    ensures DigitsValue(s + [c]) == 10 * DigitsValue(s) + DigitValue(c)
  {
    assert (s + [c])[..|s|] == s;
  }

  /** `str(n)` for a non-negative integer. */
  function NatToString(n: nat): (s: string)
    ensures |s| >= 1 && AllDigits(s)
    decreases n
  {
    if n < 10 then [DigitChar(n)] else NatToString(n / 10) + [DigitChar(n % 10)]
  }

  /** `str(n)` reads back as `n`. */
  lemma {:induction false} NatToStringValue(n: nat)
    ensures DigitsValue(NatToString(n)) == n
    decreases n
  {
    if n >= 10 {
      NatToStringValue(n / 10);
      var s := NatToString(n);
      assert s[..|s| - 1] == NatToString(n / 10);
    }
  }

  /** `str(n)` never contains a separator or a sign. */
  lemma DigitsHaveNo(s: string, c: char)
    requires AllDigits(s) && !IsDigit(c)
    ensures c !in s
  {
  }

  /** Python's whitespace (`str.isspace`, which `int()` and `strip()` both
      use): the ASCII controls `\t` to `\r` and `\x1c` to `\x1f`, the space,
      and the Unicode spaces and line and paragraph separators. */
  predicate IsSpace(ch: char) {
    var c := ch as int;
    || 0x09 <= c <= 0x0D || 0x1C <= c <= 0x20
    || c == 0x85 || c == 0xA0 || c == 0x1680
    || 0x2000 <= c <= 0x200A || c == 0x2028 || c == 0x2029
    || c == 0x202F || c == 0x205F || c == 0x3000
  }

  function StripLeft(s: string): (r: string)
    ensures |r| <= |s|
    decreases |s|
  {
    if |s| > 0 && IsSpace(s[0]) then StripLeft(s[1..]) else s
  }

  function StripRight(s: string): (r: string)
    ensures |r| <= |s|
    decreases |s|
  {
    if |s| > 0 && IsSpace(s[|s| - 1]) then StripRight(s[..|s| - 1]) else s
  }

  /** `s.strip()`. */
  function Strip(s: string): string {
    StripRight(StripLeft(s))
  }

  /** Python's `int(s)`: optional surrounding whitespace, an optional sign,
      then at least one decimal digit; anything else raises `ValueError`.
      The whitespace is peeled one character at a time. */
  function ParseInt(s: string): (r: Option<int>)
    decreases |s|
  {
    if |s| > 0 && IsSpace(s[0]) then ParseInt(s[1..])
    else if |s| > 0 && IsSpace(s[|s| - 1]) then ParseInt(s[..|s| - 1])
    else SignedDigits(s)
  }

  /** An optional sign followed by at least one decimal digit. */
  function SignedDigits(t: string): (r: Option<int>)
    ensures r.Some? <==> |t| > 0 && (AllDigits(t) || ((t[0] == '+' || t[0] == '-') && |t| > 1 && AllDigits(t[1..])))
  {
    if |t| > 0 && (t[0] == '+' || t[0] == '-') then
      var body := t[1..];
      if |body| > 0 && AllDigits(body) then
        var v: int := DigitsValue(body);
        Some(if t[0] == '-' then -v else v)
      else None
    else if |t| > 0 && AllDigits(t) then Some(DigitsValue(t))
    else None
  }

  /** Peeling whitespace character by character is `strip()` followed by
      reading the signed digits. */
  lemma {:induction false} ParseIntStrip(s: string)
    ensures ParseInt(s) == SignedDigits(Strip(s))
    decreases |s|
  {
    if |s| > 0 && IsSpace(s[0]) {
      ParseIntStrip(s[1..]);
    } else if |s| > 0 && IsSpace(s[|s| - 1]) {
      ParseIntStrip(s[..|s| - 1]);
      StripRightOf(s);
    }
  }

  /** Unicode spaces around the digits are stripped too: an ideographic
      space before `5` and a no-break space after it still read as 5. */
  lemma ParseIntUnicodeSpace()
    ensures ParseInt([0x3000 as char, '5', 0xA0 as char]) == Some(5)
    ensures ParseInt(['5', 0x1F as char]) == Some(5)
  {
    var s := [0x3000 as char, '5', 0xA0 as char];
    var t := ['5', 0xA0 as char];
    assert s[1..] == t && t[..1] == "5";
    assert ParseInt(t) == ParseInt("5") == Some(5);
    assert ParseInt(s) == ParseInt(t);
    assert ['5', 0x1F as char][..1] == "5";
  }

  /** With no leading whitespace, stripping the last character first changes nothing. */
  lemma StripRightOf(s: string)
    requires |s| > 0 && !IsSpace(s[0]) && IsSpace(s[|s| - 1])
    ensures Strip(s) == Strip(s[..|s| - 1])
  {
    assert StripLeft(s) == s;
    assert StripLeft(s[..|s| - 1]) == s[..|s| - 1];
  }

  /** A plain digit string is read as the number it writes. */
  lemma ParseIntDigits(s: string)
    requires |s| > 0 && AllDigits(s)
    ensures ParseInt(s) == Some(DigitsValue(s))
  {
    assert !IsSpace(s[0]) && !IsSpace(s[|s| - 1]);
  }

  /** `int(c)` for one character: its digit value, or nothing. */
  lemma ParseIntChar(c: char)
    ensures ParseInt([c]) == if IsDigit(c) then Some(DigitValue(c)) else None
  {
    if IsSpace(c) {
      assert [c][1..] == [];
    } else if IsDigit(c) {
      assert DigitsValue([c]) == 10 * DigitsValue([]) + DigitValue(c);
    }
  }

  /** The digits before a non-digit are exactly what a greedy `\d+` takes. */
  lemma {:induction false} LeadingDigitsOf(a: string, c: char, rest: string)
    requires AllDigits(a) && !IsDigit(c)
    ensures LeadingDigits(a + [c] + rest) == a
    decreases |a|
  {
    if |a| > 0 {
      assert (a + [c] + rest)[1..] == a[1..] + [c] + rest;
      LeadingDigitsOf(a[1..], c, rest);
      assert [a[0]] + a[1..] == a;
    }
  }

  /** `int(str(n)) == n`. */
  lemma ParseIntNatToString(n: nat)
    ensures ParseInt(NatToString(n)) == Some(n)
  {
    NatToStringValue(n);
    ParseIntDigits(NatToString(n));
  }

  /** `ParseInt` as a `Result`, raising `ValueError` on failure. */
  function ToInt(s: string): (r: Result<int>)
    ensures r.Success? <==> ParseInt(s).Some?
    ensures r.Success? ==> r.value == ParseInt(s).value
    ensures r.Failure? ==> r.error == ValueError(NotAnInteger(s))
  {
    match ParseInt(s)
    case Some(n) => Success(n)
    case None => Failure(ValueError(NotAnInteger(s)))
  }

  /** The longest prefix of decimal digits (what a greedy `\d+` consumes). */
  function LeadingDigits(s: string): (r: string)
    ensures |r| <= |s| && r == s[..|r|] && AllDigits(r)
    ensures |r| < |s| ==> !IsDigit(s[|r|])
    decreases |s|
  {
    if |s| > 0 && IsDigit(s[0]) then [s[0]] + LeadingDigits(s[1..]) else []
  }

  // ------------------------------------------------------------- case

  function LowerChar(ch: char): char {
    if 'A' <= ch <= 'Z' then (ch as int + 32) as char else ch
  }

  /** `s.lower()` restricted to ASCII letters. */
  function Lower(s: string): (r: string)
    ensures |r| == |s|
    ensures forall i :: 0 <= i < |s| ==> r[i] == LowerChar(s[i])
  {
    seq(|s|, i requires 0 <= i < |s| => LowerChar(s[i]))
  }
}

=== FILE: results.dfy ===
/** Failure-compatible result type and the exceptions the schedule engine can raise. */
module Results {

  datatype Option<+T> = None | Some(value: T)

  /** Either a value or a raised exception; usable with `:-`. */
  datatype Result<+R> = Success(value: R) | Failure(error: Exc) {
    predicate IsFailure() {
      Failure?
    }

    function PropagateFailure<U>(): Result<U>
      requires Failure?
    {
      Failure(error)
    }

    function Extract(): R
      requires Success?
    {
      value
    }
  }

  /** Why a `ValueError` was raised. */
  datatype Reason =
    | NotAnInteger(text: string)
    | UnpackMismatch
    | WeekdayOutOfRange(day: int)
    | NoMonthDay(text: string)
    | InvalidDate(year: int, month: int, day: int)
    | InvalidTime(hour: int, minute: int)
    | BadSemester(text: string)
    | UnknownSeason(tag: string)

  /** The Python exceptions the modelled code can raise. Only `ValueError` is
      recovered by the batch builder; the others escape it. */
  datatype Exc =
    | ValueError(reason: Reason)
    | IndexError
    | KeyError
    | TypeError
}

=== FILE: schedules.dfy ===
/** The schedule aggregate: building it from a batch of timetable records,
    and the conflict query against a week, date, weekday and period range. */
module Schedules {
  import opened Results
  import opened Calendar
  import opened Periods
  import opened Weeks
  import opened Entries
  import opened ExamDate
  import PyText

  /** A record that could not be decoded, with the reason. */
  datatype ErrorRecord = ErrorRecord(entry: KbRecord, reason: Reason)

  datatype Schedule = Schedule(entries: seq<Entry>, semesterDesc: string, startDate: Date)

  /** The key of the portal's remarks record. */
  const RemarksKey := "bz"

  /** What the batch builder does with one record. */
  datatype Step =
    | Skipped                    // a remarks record
    | Kept(entry: Entry)         // decoded into an entry
    | Reported(error: ErrorRecord) // decoding raised ValueError
    | Unrecognised               // no pattern matched
    | Raised(exc: Exc)           // any other exception: the batch fails

  /** What happens to one record, with exam dates anchored by `rule`:
      remarks are skipped, and otherwise the decoding decides. `Reported` is
      the corrected builder's reading of a `ValueError`; the builder as
      written halts or drops instead (`Halts`). */
  function StepOf(rec: KbRecord, d0: Date, m: Matcher, rule: DateRule): (s: Step)
    requires Valid(d0)
    ensures s.Skipped? <==> rec.key == RemarksKey
    ensures s.Kept? <==> rec.key != RemarksKey && DecodeRecord(rec, d0, m, rule).Success? && DecodeRecord(rec, d0, m, rule).value.Some?
    ensures s.Kept? ==> DecodeRecord(rec, d0, m, rule).value == Some(s.entry)
    ensures s.Unrecognised? <==> rec.key != RemarksKey && DecodeRecord(rec, d0, m, rule) == Success(None)
    ensures s.Reported? <==> rec.key != RemarksKey && DecodeRecord(rec, d0, m, rule).Failure? && DecodeRecord(rec, d0, m, rule).error.ValueError?
    ensures s.Reported? ==> s.error == ErrorRecord(rec, DecodeRecord(rec, d0, m, rule).error.reason)
    ensures s.Raised? <==> rec.key != RemarksKey && DecodeRecord(rec, d0, m, rule).Failure? && !DecodeRecord(rec, d0, m, rule).error.ValueError?
    ensures s.Raised? ==> s.exc == DecodeRecord(rec, d0, m, rule).error
  {
    if rec.key == RemarksKey then Skipped
    else match DecodeRecord(rec, d0, m, rule)
      case Success(Some(e)) => Kept(e)
      case Success(None) => Unrecognised
      case Failure(ValueError(reason)) => Reported(ErrorRecord(rec, reason))
      case Failure(exc) => Raised(exc)
  }

  /** The entries the records decode to, in record order. */
  function KeptEntries(recs: seq<KbRecord>, d0: Date, m: Matcher, rule: DateRule): seq<Entry>
    requires Valid(d0)
    decreases |recs|
  {
    if |recs| == 0 then []
    else
      var s := StepOf(recs[|recs| - 1], d0, m, rule);
      KeptEntries(recs[..|recs| - 1], d0, m, rule) + (if s.Kept? then [s.entry] else [])
  }

  /** The error records of the records that raised `ValueError`, in record order. */
  function ReportedErrors(recs: seq<KbRecord>, d0: Date, m: Matcher, rule: DateRule): seq<ErrorRecord>
    requires Valid(d0)
    decreases |recs|
  {
    if |recs| == 0 then []
    else
      var s := StepOf(recs[|recs| - 1], d0, m, rule);
      ReportedErrors(recs[..|recs| - 1], d0, m, rule) + (if s.Reported? then [s.error] else [])
  }

  /** No record of the batch raises an exception other than `ValueError`. */
  predicate NoneRaises(recs: seq<KbRecord>, d0: Date, m: Matcher, rule: DateRule)
    requires Valid(d0)
    decreases |recs|
  {
    |recs| == 0 || (NoneRaises(recs[..|recs| - 1], d0, m, rule) && !StepOf(recs[|recs| - 1], d0, m, rule).Raised?)
  }

  /** A lesson record whose weekday digit is `8` but whose periods and weeks
      read fine is reported by the corrected builder as an error naming the
      weekday, and does not stop the batch. */
  lemma WeekdayEightReported(rec: KbRecord, d0: Date, m: Matcher, rule: DateRule, g: LessonGroups)
    requires Valid(d0)
    requires m.exam(rec.sksj).None? && m.lab(rec.sksj).None? && m.lesson(rec.sksj) == Some(g)
    requires |rec.key| >= 7 && rec.key[2] == '8'
    requires CellSpans(g.slots, rec.key).Success? && ParseScheduledWeeks(g.weeks).Success?
    ensures StepOf(rec, d0, m, rule) == Reported(ErrorRecord(rec, WeekdayOutOfRange(8)))
  {
    PyText.ParseIntChar('8');
    assert ParseDayOfWeek(rec.key) == Failure(ValueError(WeekdayOutOfRange(8)));
    assert rec.key != RemarksKey;
  }

  /** `NoneRaises` says of every record that it does not raise. */
  lemma {:induction false} NoneRaisesMeaning(recs: seq<KbRecord>, d0: Date, m: Matcher, rule: DateRule, i: int)
    requires Valid(d0) && 0 <= i < |recs|
    ensures NoneRaises(recs, d0, m, rule) ==> !StepOf(recs[i], d0, m, rule).Raised? && NoneRaises(recs[..i], d0, m, rule)
    decreases |recs|
  {
    if i < |recs| - 1 && NoneRaises(recs, d0, m, rule) {
      var front := recs[..|recs| - 1];
      NoneRaisesMeaning(front, d0, m, rule, i);
      assert front[i] == recs[i] && front[..i] == recs[..i];
    }
  }

  /** `Schedule.from_kb` as evidently intended: records are decoded in order;
      remarks are skipped, unrecognised records dropped, a `ValueError` becomes
      one error record holding the record and the reason, and the batch goes
      on; any other exception ends the batch with that exception. */
  method FromKb(recs: seq<KbRecord>, desc: string, d0: Date, m: Matcher)
    returns (r: Result<(Schedule, seq<ErrorRecord>)>)
    requires Valid(d0)
    ensures r.Success? <==> NoneRaises(recs, d0, m, Corrected)
    ensures r.Success? ==> r.value == (Schedule(KeptEntries(recs, d0, m, Corrected), desc, d0), ReportedErrors(recs, d0, m, Corrected))
    ensures r.Failure? ==>
      exists i :: && 0 <= i < |recs| && StepOf(recs[i], d0, m, Corrected) == Raised(r.error)
                  && NoneRaises(recs[..i], d0, m, Corrected)
  {
    var entries: seq<Entry> := [];
    var errors: seq<ErrorRecord> := [];
    var i := 0;
    while i < |recs|
      invariant 0 <= i <= |recs|
      invariant NoneRaises(recs[..i], d0, m, Corrected)
      invariant entries == KeptEntries(recs[..i], d0, m, Corrected)
      invariant errors == ReportedErrors(recs[..i], d0, m, Corrected)
    {
      var s := StepOf(recs[i], d0, m, Corrected);
      if s.Raised? {
        NoneRaisesMeaning(recs, d0, m, Corrected, i);
        return Failure(s.exc);
      }
      PrefixStep(recs, i, d0, m, Corrected);
      PrefixNoneRaises(recs, i, d0, m, Corrected);
      entries := entries + (if s.Kept? then [s.entry] else []);
      errors := errors + (if s.Reported? then [s.error] else []);
      i := i + 1;
    }
    assert recs[..i] == recs;
    return Success((Schedule(entries, desc, d0), errors));
  }

  // ------------------------------------------------ as written: error list

  /** Whether a step ends the batch in the code as written. With an error
      list, a `ValueError` record is written to it with `json.dumps`, which
      cannot serialise the record object and raises `TypeError`; without a
      list the record is dropped. Any other exception ends the batch either way. */
  predicate Halts(s: Step, withErrorList: bool) {
    s.Raised? || (withErrorList && s.Reported?)
  }

  /** The exception a halting step ends the batch with. */
  function HaltError(s: Step): (e: Exc)
    requires s.Raised? || s.Reported?
    ensures s.Reported? ==> e == TypeError
    ensures s.Raised? ==> e == s.exc
  {
    if s.Raised? then s.exc else TypeError
  }

  /** No record of the batch halts it. */
  predicate NoneHalts(recs: seq<KbRecord>, d0: Date, m: Matcher, rule: DateRule, withErrorList: bool)
    requires Valid(d0)
    decreases |recs|
  {
    |recs| == 0 || (NoneHalts(recs[..|recs| - 1], d0, m, rule, withErrorList) && !Halts(StepOf(recs[|recs| - 1], d0, m, rule), withErrorList))
  }

  /** A batch runs to its end, as written, exactly when no record raises
      anything but `ValueError` and, with an error list, none raises at all. */
  lemma {:induction false} NoneHaltsMeaning(recs: seq<KbRecord>, d0: Date, m: Matcher, rule: DateRule, withErrorList: bool)
    requires Valid(d0)
    ensures NoneHalts(recs, d0, m, rule, withErrorList) <==>
      NoneRaises(recs, d0, m, rule) && (withErrorList ==> ReportedErrors(recs, d0, m, rule) == [])
    decreases |recs|
  {
    if |recs| > 0 {
      NoneHaltsMeaning(recs[..|recs| - 1], d0, m, rule, withErrorList);
    }
  }

  lemma {:induction false} NoneHaltsAt(recs: seq<KbRecord>, d0: Date, m: Matcher, rule: DateRule, withErrorList: bool, i: int)
    requires Valid(d0) && 0 <= i < |recs|
    ensures NoneHalts(recs, d0, m, rule, withErrorList) ==> !Halts(StepOf(recs[i], d0, m, rule), withErrorList)
    decreases |recs|
  {
    if i < |recs| - 1 && NoneHalts(recs, d0, m, rule, withErrorList) {
      var front := recs[..|recs| - 1];
      NoneHaltsAt(front, d0, m, rule, withErrorList, i);
      assert front[i] == recs[i];
    }
  }

  lemma PrefixNoneHalts(recs: seq<KbRecord>, i: int, d0: Date, m: Matcher, rule: DateRule, withErrorList: bool)
    requires Valid(d0) && 0 <= i < |recs|
    requires NoneHalts(recs[..i], d0, m, rule, withErrorList) && !Halts(StepOf(recs[i], d0, m, rule), withErrorList)
    ensures NoneHalts(recs[..i + 1], d0, m, rule, withErrorList)
  {
    assert recs[..i + 1][..i] == recs[..i];
  }

  /** `Schedule.from_kb` as written. `withErrorList` says whether the caller
      passes an error list (`to_ics` does, `phxp_arrange` does not). Without
      one, a `ValueError` record is dropped and the batch goes on; with one,
      the first such record ends the batch with `TypeError`, so no error is
      ever recorded. Any other exception ends the batch either way. */
  method FromKbAsWritten(recs: seq<KbRecord>, desc: string, d0: Date, m: Matcher, withErrorList: bool)
    returns (r: Result<Schedule>)
    requires Valid(d0)
    ensures r.Success? <==> NoneRaises(recs, d0, m, AsWritten) && (withErrorList ==> ReportedErrors(recs, d0, m, AsWritten) == [])
    ensures r.Success? ==> r.value == Schedule(KeptEntries(recs, d0, m, AsWritten), desc, d0)
    ensures r.Failure? ==>
      exists i :: && 0 <= i < |recs| && Halts(StepOf(recs[i], d0, m, AsWritten), withErrorList)
                  && r.error == HaltError(StepOf(recs[i], d0, m, AsWritten))
                  && NoneHalts(recs[..i], d0, m, AsWritten, withErrorList)
  {
    var entries: seq<Entry> := [];
    var i := 0;
    while i < |recs|
      invariant 0 <= i <= |recs|
      invariant NoneHalts(recs[..i], d0, m, AsWritten, withErrorList)
      invariant entries == KeptEntries(recs[..i], d0, m, AsWritten)
    {
      var s := StepOf(recs[i], d0, m, AsWritten);
      if s.Raised? || (withErrorList && s.Reported?) {
        NoneHaltsAt(recs, d0, m, AsWritten, withErrorList, i);
        NoneHaltsMeaning(recs, d0, m, AsWritten, withErrorList);
        return Failure(HaltError(s));
      }
      PrefixStep(recs, i, d0, m, AsWritten);
      PrefixNoneHalts(recs, i, d0, m, AsWritten, withErrorList);
      entries := entries + (if s.Kept? then [s.entry] else []);
      i := i + 1;
    }
    assert recs[..i] == recs;
    NoneHaltsMeaning(recs, d0, m, AsWritten, withErrorList);
    return Success(Schedule(entries, desc, d0));
  }

  /** The batch of one lesson record whose weekday digit is `8`: the corrected
      builder succeeds and reports it; as written, a caller with an error list
      gets `TypeError`, and one without gets no entry and no error. */
  lemma WeekdayEightHalts(rec: KbRecord, d0: Date, m: Matcher, g: LessonGroups)
    requires Valid(d0)
    requires m.exam(rec.sksj).None? && m.lab(rec.sksj).None? && m.lesson(rec.sksj) == Some(g)
    requires |rec.key| >= 7 && rec.key[2] == '8'
    requires CellSpans(g.slots, rec.key).Success? && ParseScheduledWeeks(g.weeks).Success?
    ensures NoneRaises([rec], d0, m, Corrected)
    ensures ReportedErrors([rec], d0, m, Corrected) == [ErrorRecord(rec, WeekdayOutOfRange(8))]
    ensures KeptEntries([rec], d0, m, AsWritten) == []
    ensures Halts(StepOf([rec][0], d0, m, AsWritten), true) && HaltError(StepOf([rec][0], d0, m, AsWritten)) == TypeError
    ensures NoneHalts([rec], d0, m, AsWritten, false)
  {
    WeekdayEightReported(rec, d0, m, Corrected, g);
    WeekdayEightReported(rec, d0, m, AsWritten, g);
    assert [rec][..0] == [];
  }

  /** An exam on `2月29日` from 08:00 to 10:00 in a semester starting
      2023-09-01: the corrected builder keeps it on 2024-02-29; as written
      its date raises `ValueError`, so a caller with an error list gets
      `TypeError` and one without loses the exam. */
  lemma LeapDayExamHalts(rec: KbRecord, m: Matcher, name: string, location: string)
    requires rec.key != RemarksKey
    requires m.exam(rec.sksj) == Some(ExamGroups(name, "2月29日", "08:00-10:00", location))
    ensures var s := StepOf(rec, Date(2023, 9, 1), m, Corrected);
      s.Kept? && s.entry.dates == Fixed(Date(2024, 2, 29)) && s.entry.kind == Exam
    ensures Halts(StepOf([rec][0], Date(2023, 9, 1), m, AsWritten), true)
    ensures HaltError(StepOf([rec][0], Date(2023, 9, 1), m, AsWritten)) == TypeError
    ensures NoneHalts([rec], Date(2023, 9, 1), m, AsWritten, false)
    ensures KeptEntries([rec], Date(2023, 9, 1), m, AsWritten) == []
  {
    var g := ExamGroups(name, "2月29日", "08:00-10:00", location);
    LeapDayExam(g);
    assert [rec][..0] == [];
  }

  /** The exam's own decoding under either rule. */
  lemma LeapDayExam(g: ExamGroups)
    requires g.date == "2月29日" && g.time == "08:00-10:00"
    ensures ParseExam(Some(g), Date(2023, 9, 1), Corrected) ==
      Success(Some(Entry(g.name, Fixed(Date(2024, 2, 29)), [Span(Clock(8, 0), Clock(10, 0))], g.location, Exam, "", "", Some(""))))
    ensures ParseExam(Some(g), Date(2023, 9, 1), AsWritten).Failure?
    ensures ParseExam(Some(g), Date(2023, 9, 1), AsWritten).error.ValueError?
  {
    LeapDayAnchors();
    ExamTimeExample();
  }

  /** Extending a prefix of the batch by one record. */
  lemma PrefixStep(recs: seq<KbRecord>, i: int, d0: Date, m: Matcher, rule: DateRule)
    requires Valid(d0) && 0 <= i < |recs|
    ensures var s := StepOf(recs[i], d0, m, rule);
      && KeptEntries(recs[..i + 1], d0, m, rule) == KeptEntries(recs[..i], d0, m, rule) + (if s.Kept? then [s.entry] else [])
      && ReportedErrors(recs[..i + 1], d0, m, rule) == ReportedErrors(recs[..i], d0, m, rule) + (if s.Reported? then [s.error] else [])
  {
    assert recs[..i + 1][..i] == recs[..i];
    assert recs[..i + 1][i] == recs[i];
  }

  lemma PrefixNoneRaises(recs: seq<KbRecord>, i: int, d0: Date, m: Matcher, rule: DateRule)
    requires Valid(d0) && 0 <= i < |recs|
    requires NoneRaises(recs[..i], d0, m, rule) && !StepOf(recs[i], d0, m, rule).Raised?
    ensures NoneRaises(recs[..i + 1], d0, m, rule)
  {
    assert recs[..i + 1][..i] == recs[..i];
  }

  /** Building is compositional: the entries and errors of two consecutive
      batches are those of the first followed by those of the second, so
      output order follows input order. */
  lemma {:induction false} BuildAppend(a: seq<KbRecord>, b: seq<KbRecord>, d0: Date, m: Matcher, rule: DateRule)
    requires Valid(d0)
    ensures KeptEntries(a + b, d0, m, rule) == KeptEntries(a, d0, m, rule) + KeptEntries(b, d0, m, rule)
    ensures ReportedErrors(a + b, d0, m, rule) == ReportedErrors(a, d0, m, rule) + ReportedErrors(b, d0, m, rule)
    decreases |b|
  {
    if |b| == 0 {
      assert a + b == a;
    } else {
      var b' := b[..|b| - 1];
      assert (a + b)[..|a + b| - 1] == a + b';
      assert (a + b)[|a + b| - 1] == b[|b| - 1];
      BuildAppend(a, b', d0, m, rule);
    }
  }

  /** One record on its own: a remarks record yields nothing; otherwise at
      most one entry or one error record, as its decoding says. */
  lemma BuildSingle(rec: KbRecord, d0: Date, m: Matcher, rule: DateRule)
    requires Valid(d0)
    ensures rec.key == RemarksKey ==> KeptEntries([rec], d0, m, rule) == [] && ReportedErrors([rec], d0, m, rule) == []
    ensures |KeptEntries([rec], d0, m, rule)| + |ReportedErrors([rec], d0, m, rule)| <= 1
    ensures KeptEntries([rec], d0, m, rule) != [] <==>
      rec.key != RemarksKey && DecodeRecord(rec, d0, m, rule).Success? && DecodeRecord(rec, d0, m, rule).value.Some?
    ensures ReportedErrors([rec], d0, m, rule) != [] <==>
      rec.key != RemarksKey && DecodeRecord(rec, d0, m, rule).Failure? && DecodeRecord(rec, d0, m, rule).error.ValueError?
  {
    assert [rec][..0] == [];
  }

  /** Every record contributes at most one entry or error. */
  lemma {:induction false} BuildCounts(recs: seq<KbRecord>, d0: Date, m: Matcher, rule: DateRule)
    requires Valid(d0)
    ensures |KeptEntries(recs, d0, m, rule)| + |ReportedErrors(recs, d0, m, rule)| <= |recs|
    decreases |recs|
  {
    if |recs| > 0 {
      BuildCounts(recs[..|recs| - 1], d0, m, rule);
    }
  }

  /** Remarks records can be removed from a batch without changing its result. */
  lemma RemarksIgnored(a: seq<KbRecord>, rec: KbRecord, b: seq<KbRecord>, d0: Date, m: Matcher, rule: DateRule)
    requires Valid(d0) && rec.key == RemarksKey
    ensures KeptEntries(a + [rec] + b, d0, m, rule) == KeptEntries(a + b, d0, m, rule)
    ensures ReportedErrors(a + [rec] + b, d0, m, rule) == ReportedErrors(a + b, d0, m, rule)
  {
    BuildAppend(a + [rec], b, d0, m, rule);
    BuildAppend(a, [rec], d0, m, rule);
    BuildAppend(a, b, d0, m, rule);
    BuildSingle(rec, d0, m, rule);
  }

  // -------------------------------------------------------------- query

  /** The date test of the query: a one-off entry on exactly that date, a
      weekly one in that week on that weekday. */
  predicate DateMatches(e: Entry, qWeek: int, qDate: Date, qDow: int) {
    match e.dates
    case Fixed(d) => d == qDate
    case Weekly(sd) => Contains(sd, qWeek, qDow)
  }

  /** The clock span of a queried period range. */
  function QuerySpan(q0: int, q1: int): Span
    requires q0 in SlotTable && q1 in SlotTable
  {
    Span(SlotTable[q0].start, SlotTable[q1].end)
  }

  predicate Hit(e: Entry, qWeek: int, qDate: Date, qDow: int, q0: int, q1: int)
    requires q0 in SlotTable && q1 in SlotTable
  {
    DateMatches(e, qWeek, qDate, qDow) && OverlapsWith(e.timeRanges, QuerySpan(q0, q1))
  }

  /** The entries that pass both tests, in entry order. */
  function Selected(es: seq<Entry>, qWeek: int, qDate: Date, qDow: int, q0: int, q1: int): (r: seq<Entry>)
    requires q0 in SlotTable && q1 in SlotTable
    ensures forall e :: e in r <==> e in es && Hit(e, qWeek, qDate, qDow, q0, q1)
    ensures |es| == 1 ==> r == (if Hit(es[0], qWeek, qDate, qDow, q0, q1) then es else [])
    decreases |es|
  {
    if |es| == 0 then []
    else
      var rest := Selected(es[..|es| - 1], qWeek, qDate, qDow, q0, q1);
      var last := es[|es| - 1];
      assert forall e :: e in es <==> e in es[..|es| - 1] || e == last;
      rest + (if Hit(last, qWeek, qDate, qDow, q0, q1) then [last] else [])
  }

  /** Selection keeps entry order: it distributes over concatenation. */
  lemma {:induction false} SelectedAppend(a: seq<Entry>, b: seq<Entry>, qWeek: int, qDate: Date, qDow: int, q0: int, q1: int)
    requires q0 in SlotTable && q1 in SlotTable
    ensures Selected(a + b, qWeek, qDate, qDow, q0, q1)
      == Selected(a, qWeek, qDate, qDow, q0, q1) + Selected(b, qWeek, qDate, qDow, q0, q1)
    decreases |b|
  {
    if |b| == 0 {
      assert a + b == a;
    } else {
      var b' := b[..|b| - 1];
      assert (a + b)[..|a + b| - 1] == a + b';
      assert (a + b)[|a + b| - 1] == b[|b| - 1];
      SelectedAppend(a, b', qWeek, qDate, qDow, q0, q1);
    }
  }

  /** `Schedule.query_lesson_at`, read to the end: the entries passing the date
      test and overlapping the clock span of periods `q0..q1`. A period outside
      the table raises `KeyError` as soon as some entry passes the date test. */
  method QueryLessonAt(s: Schedule, qWeek: int, qDate: Date, qDow: int, q0: int, q1: int)
    returns (r: Result<seq<Entry>>)
    ensures r.Failure? <==>
      && !(q0 in SlotTable && q1 in SlotTable)
      && exists i :: 0 <= i < |s.entries| && DateMatches(s.entries[i], qWeek, qDate, qDow)
    ensures r.Failure? ==> r.error == KeyError
    ensures r.Success? && q0 in SlotTable && q1 in SlotTable ==>
      r.value == Selected(s.entries, qWeek, qDate, qDow, q0, q1)
    ensures r.Success? && !(q0 in SlotTable && q1 in SlotTable) ==> r.value == []
  {
    var found: seq<Entry> := [];
    var i := 0;
    while i < |s.entries|
      invariant 0 <= i <= |s.entries|
      invariant q0 in SlotTable && q1 in SlotTable ==> found == Selected(s.entries[..i], qWeek, qDate, qDow, q0, q1)
      invariant !(q0 in SlotTable && q1 in SlotTable) ==>
        found == [] && forall j :: 0 <= j < i ==> !DateMatches(s.entries[j], qWeek, qDate, qDow)
    {
      var e := s.entries[i];
      assert s.entries[..i + 1][..i] == s.entries[..i];
      if DateMatches(e, qWeek, qDate, qDow) {
        if q0 !in SlotTable || q1 !in SlotTable {
          return Failure(KeyError);
        }
        if OverlapsWith(e.timeRanges, Span(SlotTable[q0].start, SlotTable[q1].end)) {
          found := found + [e];
        }
      }
      i := i + 1;
    }
    assert s.entries[..i] == s.entries;
    return Success(found);
  }
}

=== FILE: semester.dfy ===
/** Semester names: the command-line semester argument (`24秋`, `25s`,
    `2025夏`) as (academic year, term), and the short label made back from them. */
module Semester {
  import opened Results
  import opened PyText

  const Spring: set<string> := {"春", "sp", "s"}
  const Summer: set<string> := {"夏", "su"}
  const Fall: set<string> := {"秋", "f", "au", "fa"}

  /** `sp`, `su`, `au` or `fa`. */
  predicate TwoLetterTag(a: char, b: char) {
    (a == 's' && (b == 'p' || b == 'u')) || (a == 'a' && b == 'u') || (a == 'f' && b == 'a')
  }

  /** What `(sp|su|au|fa|[afs春夏秋])?` captures at the start of `rest`: the
      two-letter tags are tried before the single characters. */
  function SeasonTag(rest: string): (r: Option<string>)
    ensures r.Some? ==> |r.value| <= |rest| && r.value == rest[..|r.value|]
    ensures r.Some? ==> r.value in Spring + Summer + Fall + {"a"}
    ensures r.None? <==> |rest| == 0 || rest[0] !in {'a', 'f', 's', '春', '夏', '秋'}
    ensures r.Some? ==> 1 <= |r.value| <= 2
    ensures r.Some? ==> (|r.value| == 2 <==> |rest| >= 2 && TwoLetterTag(rest[0], rest[1]))
  {
    if |rest| >= 2 && TwoLetterTag(rest[0], rest[1]) then Some([rest[0], rest[1]])
    else if |rest| >= 1 && rest[0] in {'a', 'f', 's', '春', '夏', '秋'} then Some([rest[0]])
    else None
  }

  /** A year below 100 is read as 20xx. */
  function BaseYear(n: nat): (y: nat)
    ensures y >= 100
  {
    if n < 100 then 2000 + n else n
  }

  /** The academic year `"a-b"`. */
  function YearSpan(a: nat, b: nat): string {
    NatToString(a) + "-" + NatToString(b)
  }

  /** `parse_semester_arg`: lower-case the text, read its leading digits as
      the year and what follows as the season. Spring and summer belong to the
      academic year ending in that year (term 2 and 3), autumn (also the
      default when no season is recognised) to the one starting in it (term 1).
      No leading digits, or a lone `a`, raise `ValueError`. */
  function ParseSemesterArg(s: string): (r: Result<(string, string)>)
    ensures r.Failure? ==> r.error.ValueError?
    ensures |LeadingDigits(Lower(s))| == 0 ==> r == Failure(ValueError(BadSemester(s)))
    ensures r.Success? ==> r.value.1 in {"1", "2", "3"}
  {
    var t := Lower(s);
    var ds := LeadingDigits(t);
    if |ds| == 0 then Failure(ValueError(BadSemester(s)))
    else FromTag(BaseYear(DigitsValue(ds)), SeasonTag(t[|ds|..]))
  }

  /** The semester of a year and a captured season tag. */
  function FromTag(year: nat, tag: Option<string>): (r: Result<(string, string)>)
    requires year >= 1
    ensures r.Failure? <==> tag.Some? && tag.value !in Spring + Summer + Fall
    ensures r.Failure? ==> r.error == ValueError(UnknownSeason(tag.value))
    ensures tag.Some? && tag.value in Spring ==> r == Success((YearSpan(year - 1, year), "2"))
    ensures tag.Some? && tag.value in Summer ==> r == Success((YearSpan(year - 1, year), "3"))
    ensures tag.None? || tag.value in Fall ==> r == Success((YearSpan(year, year + 1), "1"))
  {
    if tag.Some? && tag.value in Spring then Success((YearSpan(year - 1, year), "2"))
    else if tag.Some? && tag.value in Summer then Success((YearSpan(year - 1, year), "3"))
    else if tag.None? || tag.value in Fall then Success((YearSpan(year, year + 1), "1"))
    else Failure(ValueError(UnknownSeason(tag.value)))
  }

  /** Reading a text whose lower-cased form is a number followed by a non-digit tail. */
  lemma ParseShape(s: string, ds: string, tail: string)
    requires Lower(s) == ds + tail
    requires |ds| > 0 && AllDigits(ds) && (|tail| == 0 || !IsDigit(tail[0]))
    ensures ParseSemesterArg(s) == FromTag(BaseYear(DigitsValue(ds)), SeasonTag(tail))
  {
    if |tail| == 0 {
      assert ds + tail == ds;
      assert LeadingDigits(ds) == ds;
    } else {
      LeadingDigitsOf(ds, tail[0], tail[1..]);
      assert ds + [tail[0]] + tail[1..] == ds + tail;
    }
    assert (ds + tail)[|ds|..] == tail;
  }

  function SeasonName(xq: string): char
    requires xq in {"1", "2", "3"}
  {
    if xq == "1" then '秋' else if xq == "2" then '春' else '夏'
  }

  /** `year[-2:]`. */
  function LastTwo(y: string): string {
    if |y| >= 2 then y[|y| - 2..] else y
  }

  /** `get_semester_desc_brief`: the last two digits of the calendar year the
      term lies in (the first year of `xn` for autumn, the second otherwise)
      and the season's character. */
  function SemesterDescBrief(xn: string, xq: string): (r: Result<string>)
    ensures r.Success? ==> xq in {"1", "2", "3"} && |r.value| >= 1 && r.value[|r.value| - 1] == SeasonName(xq)
    ensures r.Failure? ==> r.error == IndexError || r.error == KeyError
    ensures var idx := if xq == "1" then 0 else 1;
      && (r == Failure(IndexError) <==> idx >= |Split(xn, '-')|)
      && (r == Failure(KeyError) <==> idx < |Split(xn, '-')| && xq !in {"1", "2", "3"})
    ensures r.Success? ==>
      var year := Split(xn, '-')[if xq == "1" then 0 else 1];
      var k := |r.value| - 1;
      && k == (if |year| < 2 then |year| else 2)
      && r.value[..k] == year[|year| - k..]
  {
    var pieces := Split(xn, '-');
    var idx := if xq == "1" then 0 else 1;
    if idx >= |pieces| then Failure(IndexError)
    else if xq !in {"1", "2", "3"} then Failure(KeyError)
    else Success(LastTwo(pieces[idx]) + [SeasonName(xq)])
  }

  // ----------------------------------------------------------- lemmas

  lemma LowerKeeps(s: string)
    requires forall i :: 0 <= i < |s| ==> !('A' <= s[i] <= 'Z')
    ensures Lower(s) == s
  {
  }

  /** `str(2000 + n)` for `n < 100` is `20` followed by the two digits of `n`. */
  lemma TwentyHundreds(n: nat)
    requires n < 100
    ensures NatToString(2000 + n) == "20" + [DigitChar(n / 10), DigitChar(n % 10)]
  {
    var y := 2000 + n;
    assert y / 10 == 200 + n / 10 && y % 10 == n % 10;
    var z := 200 + n / 10;
    assert z / 10 == 20 && z % 10 == n / 10;
    assert NatToString(20) == NatToString(2) + [DigitChar(0)];
  }

  lemma SplitYearSpan(a: nat, b: nat)
    ensures Split(YearSpan(a, b), '-') == [NatToString(a), NatToString(b)]
  {
    DigitsHaveNo(NatToString(a), '-');
    DigitsHaveNo(NatToString(b), '-');
    SplitCons(NatToString(a), '-', NatToString(b));
    SplitNone(NatToString(b), '-');
  }

  lemma TwoDigitsValue(d1: char, d2: char)
    requires IsDigit(d1) && IsDigit(d2)
    ensures AllDigits([d1, d2])
    ensures DigitsValue([d1, d2]) == 10 * DigitValue(d1) + DigitValue(d2)
  {
    DigitsValueSnoc([d1], d2);
    DigitsValueSnoc([], d1);
    assert [] + [d1] == [d1];
    assert [d1] + [d2] == [d1, d2];
  }

  /** The term number of a season character; the inverse of `SeasonName`. */
  function TermOf(c: char): (xq: string)
    requires c in {'春', '夏', '秋'}
    ensures xq in {"1", "2", "3"} && SeasonName(xq) == c
  {
    if c == '秋' then "1" else if c == '春' then "2" else "3"
  }

  /** The canonical academic year text of a term in calendar year `y`. */
  function Canonical(y: nat, xq: string): string
    requires y >= 1
  {
    if xq == "1" then YearSpan(y, y + 1) else YearSpan(y - 1, y)
  }

  lemma SeasonCharTag(y: nat, c: char)
    requires y >= 100 && c in {'春', '夏', '秋'}
    ensures SeasonTag([c]) == Some([c])
    ensures FromTag(y, Some([c])) == Success((Canonical(y, TermOf(c)), TermOf(c)))
  {
  }

  /** The year `yy` names: 20yy. */
  function TwoDigitYear(d1: char, d2: char): nat
    requires IsDigit(d1) && IsDigit(d2)
  {
    2000 + 10 * DigitValue(d1) + DigitValue(d2)
  }

  lemma TwoDigitsYear(d1: char, d2: char)
    requires IsDigit(d1) && IsDigit(d2)
    ensures AllDigits([d1, d2]) && BaseYear(DigitsValue([d1, d2])) == TwoDigitYear(d1, d2)
  {
    TwoDigitsValue(d1, d2);
  }

  lemma ParseTwoDigitsTag(d1: char, d2: char, c: char)
    requires IsDigit(d1) && IsDigit(d2) && c in {'春', '夏', '秋'}
    ensures ParseSemesterArg([d1, d2, c]) == FromTag(TwoDigitYear(d1, d2), Some([c]))
  {
    assert [d1, d2, c] == [d1, d2] + [c];
    TwoDigitsYear(d1, d2);
    LowerKeeps([c]);
    ParseDigitsTail([d1, d2], [c]);
  }

  /** Two digits and a season character, read as a semester of year 20yy. */
  lemma ParseTwoDigits(d1: char, d2: char, c: char)
    requires IsDigit(d1) && IsDigit(d2) && c in {'春', '夏', '秋'}
    ensures ParseSemesterArg([d1, d2, c])
      == Success((Canonical(TwoDigitYear(d1, d2), TermOf(c)), TermOf(c)))
  {
    ParseTwoDigitsTag(d1, d2, c);
    SeasonCharTag(TwoDigitYear(d1, d2), c);
  }

  /** The short label of a term in 20yy is the two digits of yy and the season. */
  lemma BriefOfCanonical(y: nat, xq: string)
    requires 2000 <= y < 2100 && xq in {"1", "2", "3"}
    ensures var n := y - 2000;
      SemesterDescBrief(Canonical(y, xq), xq) == Success([DigitChar(n / 10), DigitChar(n % 10), SeasonName(xq)])
  {
    var n := y - 2000;
    TwentyHundreds(n);
    var two := [DigitChar(n / 10), DigitChar(n % 10)];
    assert LastTwo(NatToString(y)) == two;
    assert two + [SeasonName(xq)] == [DigitChar(n / 10), DigitChar(n % 10), SeasonName(xq)];
    if xq == "1" {
      SplitYearSpan(y, y + 1);
      assert Split(Canonical(y, xq), '-')[0] == NatToString(y);
    } else {
      SplitYearSpan(y - 1, y);
      assert Split(Canonical(y, xq), '-')[1] == NatToString(y);
    }
  }

  /** Round trip from the short label: `yy` followed by 春, 夏 or 秋 is read
      as a semester whose short label is the same text again. */
  lemma BriefOfParse(d1: char, d2: char, c: char)
    requires IsDigit(d1) && IsDigit(d2) && c in {'春', '夏', '秋'}
    ensures ParseSemesterArg([d1, d2, c]).Success?
    ensures var p := ParseSemesterArg([d1, d2, c]).value;
      SemesterDescBrief(p.0, p.1) == Success([d1, d2, c])
  {
    ParseTwoDigits(d1, d2, c);
    DigitsOfTwo(d1, d2);
    BriefOfCanonical(TwoDigitYear(d1, d2), TermOf(c));
  }

  lemma DigitsOfTwo(d1: char, d2: char)
    requires IsDigit(d1) && IsDigit(d2)
    ensures var n := 10 * DigitValue(d1) + DigitValue(d2);
      n < 100 && DigitChar(n / 10) == d1 && DigitChar(n % 10) == d2
  {
    var n := 10 * DigitValue(d1) + DigitValue(d2);
    assert n / 10 == DigitValue(d1) && n % 10 == DigitValue(d2);
  }

  /** Round trip from (academic year, term): for terms in 2000..2099 the short
      label reads back as the same academic year and term. */
  lemma ParseOfBrief(y: nat, xq: string)
    requires 2000 <= y < 2100 && xq in {"1", "2", "3"}
    ensures SemesterDescBrief(Canonical(y, xq), xq).Success?
    ensures ParseSemesterArg(SemesterDescBrief(Canonical(y, xq), xq).value) == Success((Canonical(y, xq), xq))
  {
    var n := y - 2000;
    BriefOfCanonical(y, xq);
    var d1 := DigitChar(n / 10);
    var d2 := DigitChar(n % 10);
    assert TwoDigitYear(d1, d2) == y;
    assert TermOf(SeasonName(xq)) == xq;
    ParseTwoDigits(d1, d2, SeasonName(xq));
  }

  /** Only the lower-cased text matters: `25SP` and `25sp` are the same semester. */
  lemma CaseInsensitive(s1: string, s2: string)
    requires Lower(s1) == Lower(s2)
    ensures ParseSemesterArg(s1).Success? <==> ParseSemesterArg(s2).Success?
    ensures ParseSemesterArg(s1).Success? ==> ParseSemesterArg(s1).value == ParseSemesterArg(s2).value
  {
  }

  /** A number followed by a tail that does not start with a digit once
      lower-cased: the lower-cased tail alone decides the season. */
  lemma ParseDigitsRest(ds: string, rest: string)
    requires |ds| > 0 && AllDigits(ds)
    requires |rest| == 0 || !IsDigit(LowerChar(rest[0]))
    ensures ParseSemesterArg(ds + rest) == FromTag(BaseYear(DigitsValue(ds)), SeasonTag(Lower(rest)))
  {
    LowerDigitsThen(ds, rest);
    ParseShape(ds + rest, ds, Lower(rest));
  }

  lemma ParseDigitsTail(ds: string, tail: string)
    requires |ds| > 0 && AllDigits(ds)
    requires Lower(tail) == tail && (|tail| == 0 || !IsDigit(tail[0]))
    ensures ParseSemesterArg(ds + tail) == FromTag(BaseYear(DigitsValue(ds)), SeasonTag(tail))
  {
    ParseDigitsRest(ds, tail);
  }

  lemma LowerDigitsThen(ds: string, tail: string)
    requires AllDigits(ds)
    ensures Lower(ds + tail) == ds + Lower(tail)
  {
  }

  lemma SpringTags(y: nat)
    requires y >= 100
    ensures SeasonTag("s") == Some("s") && SeasonTag("sp") == Some("sp") && SeasonTag("春") == Some("春")
    ensures FromTag(y, Some("s")) == FromTag(y, Some("sp")) == FromTag(y, Some("春"))
  {
  }

  lemma SummerTags(y: nat)
    requires y >= 100
    ensures SeasonTag("su") == Some("su") && SeasonTag("夏") == Some("夏")
    ensures FromTag(y, Some("su")) == FromTag(y, Some("夏"))
  {
  }

  lemma FallTags(y: nat)
    requires y >= 100
    ensures SeasonTag("f") == Some("f") && SeasonTag("fa") == Some("fa")
    ensures SeasonTag("au") == Some("au") && SeasonTag("秋") == Some("秋") && SeasonTag("") == None
    ensures FromTag(y, Some("f")) == FromTag(y, Some("fa")) == FromTag(y, Some("au"))
      == FromTag(y, Some("秋")) == FromTag(y, None)
  {
  }

  /** The English spring tags are aliases of 春. */
  lemma SpringAliases(ds: string)
    requires |ds| > 0 && AllDigits(ds)
    ensures ParseSemesterArg(ds + "s") == ParseSemesterArg(ds + "sp") == ParseSemesterArg(ds + "春")
  {
    ParseDigitsTail(ds, "s");
    ParseDigitsTail(ds, "sp");
    ParseDigitsTail(ds, "春");
    SpringTags(BaseYear(DigitsValue(ds)));
  }

  /** A year written in full (`2025夏`) is used as it is: spring and summer
      belong to the academic year ending in it, autumn to the one starting in it. */
  lemma FullYearSeasons(ds: string)
    requires |ds| > 0 && AllDigits(ds) && DigitsValue(ds) >= 100
    ensures var y := DigitsValue(ds);
      && ParseSemesterArg(ds + "春") == Success((YearSpan(y - 1, y), "2"))
      && ParseSemesterArg(ds + "夏") == Success((YearSpan(y - 1, y), "3"))
      && ParseSemesterArg(ds + "秋") == Success((YearSpan(y, y + 1), "1"))
  {
    FullYearSeason(ds, '春');
    FullYearSeason(ds, '夏');
    FullYearSeason(ds, '秋');
  }

  lemma FullYearSeason(ds: string, c: char)
    requires |ds| > 0 && AllDigits(ds) && DigitsValue(ds) >= 100
    requires c in {'春', '夏', '秋'}
    ensures ParseSemesterArg(ds + [c]) == FromTag(DigitsValue(ds), Some([c]))
  {
    assert Lower([c]) == [c];
    assert SeasonTag([c]) == Some([c]);
    ParseDigitsTail(ds, [c]);
  }

  /** `su` is an alias of 夏. */
  lemma SummerAliases(ds: string)
    requires |ds| > 0 && AllDigits(ds)
    ensures ParseSemesterArg(ds + "su") == ParseSemesterArg(ds + "夏")
  {
    ParseDigitsTail(ds, "su");
    ParseDigitsTail(ds, "夏");
    SummerTags(BaseYear(DigitsValue(ds)));
  }

  /** `f` and `fa` are aliases of 秋. */
  lemma FallAliases(ds: string)
    requires |ds| > 0 && AllDigits(ds)
    ensures ParseSemesterArg(ds + "f") == ParseSemesterArg(ds + "fa") == ParseSemesterArg(ds + "秋")
  {
    ParseDigitsTail(ds, "f");
    ParseDigitsTail(ds, "fa");
    ParseDigitsTail(ds, "秋");
    FallTags(BaseYear(DigitsValue(ds)));
  }

  /** `au` is an alias of 秋 as well. */
  lemma AutumnAlias(ds: string)
    requires |ds| > 0 && AllDigits(ds)
    ensures ParseSemesterArg(ds + "au") == ParseSemesterArg(ds + "秋")
  {
    ParseDigitsTail(ds, "au");
    ParseDigitsTail(ds, "秋");
    FallTags(BaseYear(DigitsValue(ds)));
  }

  /** A bare number means autumn. */
  lemma BareIsFall(ds: string)
    requires |ds| > 0 && AllDigits(ds)
    ensures ParseSemesterArg(ds) == ParseSemesterArg(ds + "秋")
  {
    ParseDigitsTail(ds, "");
    ParseDigitsTail(ds, "秋");
    assert ds + "" == ds;
    FallTags(BaseYear(DigitsValue(ds)));
  }

  /** A tail whose first character, lower-cased, neither is a digit nor
      starts a season tag. */
  lemma NoTag(rest: string)
    requires |rest| > 0 && !IsDigit(rest[0]) && rest[0] !in {'a', 'f', 's', '春', '夏', '秋', 'A', 'F', 'S'}
    ensures !IsDigit(LowerChar(rest[0]))
    ensures SeasonTag(Lower(rest)) == None
  {
  }

  lemma FallDefault(y: nat)
    requires y >= 1
    ensures FromTag(y, None) == Success((YearSpan(y, y + 1), "1"))
  {
  }

  /** Year and season rules on a leading number `ds` and an unrecognised tail:
      a number below 100 is 2000 + n, a larger one is kept, and an unknown
      suffix (`25x`) means autumn. */
  lemma DefaultsToFall(ds: string, rest: string)
    requires |ds| > 0 && AllDigits(ds)
    requires |rest| > 0 && !IsDigit(rest[0]) && rest[0] !in {'a', 'f', 's', '春', '夏', '秋', 'A', 'F', 'S'}
    ensures var n := DigitsValue(ds);
      var y := if n < 100 then 2000 + n else n;
      ParseSemesterArg(ds + rest) == Success((YearSpan(y, y + 1), "1"))
  {
    NoTag(rest);
    ParseDigitsRest(ds, rest);
    FallDefault(BaseYear(DigitsValue(ds)));
  }

  lemma LoneATag(rest: string)
    requires |rest| == 0 || (rest[0] != 'u' && rest[0] != 'U')
    ensures SeasonTag(Lower("a" + rest)) == Some("a")
  {
    var t := Lower("a" + rest);
    assert t[0] == 'a';
    assert |t| == 1 || t[1] == LowerChar(rest[0]);
    assert t[..1] == "a";
  }

  lemma LoneAUnknown(y: nat)
    requires y >= 1
    ensures FromTag(y, Some("a")) == Failure(ValueError(UnknownSeason("a")))
  {
  }

  /** A lone `a` after the year is captured but names no season, so it raises. */
  lemma LoneAFails(ds: string, rest: string)
    requires |ds| > 0 && AllDigits(ds)
    requires |rest| == 0 || (rest[0] != 'u' && rest[0] != 'U')
    ensures ParseSemesterArg(ds + "a" + rest) == Failure(ValueError(UnknownSeason("a")))
  {
    assert ds + "a" + rest == ds + ("a" + rest);
    ParseDigitsRest(ds, "a" + rest);
    LoneATag(rest);
    LoneAUnknown(BaseYear(DigitsValue(ds)));
  }
}

=== FILE: weeks.dfy ===
/** Teaching weeks: the week-list text of a timetable cell (`1-8,10,11-15单`)
    and the weekly recurrence it describes. */
module Weeks {
  import opened Results
  import opened PyText
  import opened Calendar

  // ------------------------------------------------------------ ranges

  /** `list(range(lo, hi + 1))`. */
  function Range(lo: int, hi: int): (r: seq<int>)
    ensures |r| == if hi >= lo then hi - lo + 1 else 0
    ensures forall i :: 0 <= i < |r| ==> r[i] == lo + i
    ensures forall x :: x in r <==> lo <= x <= hi
    ensures StrictlyAscending(r)
    decreases hi - lo
  {
    if hi < lo then [] else [lo] + Range(lo + 1, hi)
  }

  /** The elements of `s` with the given remainder modulo 2, in order. */
  function WithParity(s: seq<int>, parity: int): (r: seq<int>)
    ensures forall x :: x in r <==> x in s && x % 2 == parity
    ensures |r| <= |s|
    ensures |s| == 1 ==> r == if s[0] % 2 == parity then s else []
    decreases |s|
  {
    if |s| == 0 then []
    else (if s[0] % 2 == parity then [s[0]] else []) + WithParity(s[1..], parity)
  }

  /** The filter works element by element: filtering `a + b` is filtering
      `a`, then `b`, so order and repetitions are kept. */
  lemma {:induction false} WithParityAppend(a: seq<int>, b: seq<int>, parity: int)
    ensures WithParity(a + b, parity) == WithParity(a, parity) + WithParity(b, parity)
    decreases |a|
  {
    if |a| == 0 {
      assert a + b == b;
    } else {
      var head := if a[0] % 2 == parity then [a[0]] else [];
      assert (a + b)[0] == a[0];
      assert (a + b)[1..] == a[1..] + b;
      assert WithParity(a + b, parity) == head + WithParity(a[1..] + b, parity);
      assert WithParity(a, parity) == head + WithParity(a[1..], parity);
      WithParityAppend(a[1..], b, parity);
    }
  }

  predicate StrictlyAscending(s: seq<int>) {
    forall i, j :: 0 <= i < j < |s| ==> s[i] < s[j]
  }

  lemma {:induction false} WithParityAscending(s: seq<int>, parity: int)
    requires StrictlyAscending(s)
    ensures StrictlyAscending(WithParity(s, parity))
    decreases |s|
  {
    if |s| > 0 {
      assert StrictlyAscending(s[1..]);
      WithParityAscending(s[1..], parity);
      var rest := WithParity(s[1..], parity);
      forall x | x in rest ensures s[0] < x {
        assert x in s[1..];
      }
      if s[0] % 2 == parity {
        var r := WithParity(s, parity);
        assert r == [s[0]] + rest;
        forall i, j | 0 <= i < j < |r| ensures r[i] < r[j] {
          assert r[j] == rest[j - 1];
          if i > 0 {
            assert r[i] == rest[i - 1];
          } else {
            assert rest[j - 1] in rest;
          }
        }
      } else {
        assert WithParity(s, parity) == rest;
      }
    }
  }

  // ------------------------------------------------ _parse_scheduled_weeks

  /** The two week numbers either side of the dash: the text must split at
      `-` into exactly two integers, and anything else raises `ValueError`. */
  function PairOf(t: string): (r: Result<(int, int)>)
    ensures r.Success? <==>
      var ps := Split(t, '-');
      |ps| == 2 && ParseInt(ps[0]).Some? && ParseInt(ps[1]).Some?
    ensures r.Success? ==>
      var ps := Split(t, '-');
      && |ps| == 2 && ParseInt(ps[0]).Some? && ParseInt(ps[1]).Some?
      && r.value == (ParseInt(ps[0]).value, ParseInt(ps[1]).value)
    ensures r.Failure? ==> r.error.ValueError?
  {
    var ps := Split(t, '-');
    var a :- ToInt(ps[0]);
    if |ps| < 2 then Failure(ValueError(UnpackMismatch))
    else
      var b :- ToInt(ps[1]);
      if |ps| > 2 then
        var _ :- ToInt(ps[2]);
        Failure(ValueError(UnpackMismatch))
      else Success((a, b))
  }

  /** One comma-separated piece of a week list: `n`, `a-b`, `a-b单` (odd weeks)
      or `a-b双` (even weeks). */
  function ParseSpan(span: string): (r: Result<seq<int>>)
    ensures r.Failure? ==> r.error.ValueError?
    ensures '-' !in span ==>
      && (r.Success? <==> ParseInt(span).Some?)
      && (r.Success? ==> r.value == [ParseInt(span).value])
    ensures '-' in span ==>
      var mark := span[|span| - 1];
      var body := if mark == '双' || mark == '单' then span[..|span| - 1] else span;
      && (r.Success? <==> PairOf(body).Success?)
  {
    if '-' !in span then
      var n :- ToInt(span);
      Success([n])
    else if span[|span| - 1] == '双' then
      var (w0, w1) :- PairOf(span[..|span| - 1]);
      Success(WithParity(Range(w0, w1), 0))
    else if span[|span| - 1] == '单' then
      var (w0, w1) :- PairOf(span[..|span| - 1]);
      Success(WithParity(Range(w0, w1), 1))
    else
      var (w0, w1) :- PairOf(span);
      Success(Range(w0, w1))
  }

  /** The weeks of a dashed piece: those between its two ends, only the odd
      ones for `单` and only the even ones for `双`, in ascending order. */
  lemma ParseSpanMeaning(span: string)
    requires '-' in span && ParseSpan(span).Success?
    ensures var mark := span[|span| - 1];
      var body := if mark == '双' || mark == '单' then span[..|span| - 1] else span;
      var (lo, hi) := PairOf(body).value;
      && StrictlyAscending(ParseSpan(span).value)
      && forall w :: w in ParseSpan(span).value <==>
           && lo <= w <= hi
           && (mark == '双' ==> w % 2 == 0)
           && (mark == '单' ==> w % 2 == 1)
  {
    var mark := span[|span| - 1];
    var body := if mark == '双' || mark == '单' then span[..|span| - 1] else span;
    var (lo, hi) := PairOf(body).value;
    if mark == '双' {
      WithParityAscending(Range(lo, hi), 0);
    } else if mark == '单' {
      WithParityAscending(Range(lo, hi), 1);
    }
  }

  /** Every piece reads as a week span. */
  predicate AllSpansRead(ps: seq<string>) {
    forall i :: 0 <= i < |ps| ==> ParseSpan(ps[i]).Success?
  }

  function ParseSpans(ps: seq<string>): (r: Result<seq<int>>)
    ensures r.Failure? ==> r.error.ValueError?
    decreases |ps|
  {
    if |ps| == 0 then Success([])
    else
      var h :- ParseSpan(ps[0]);
      var t :- ParseSpans(ps[1..]);
      Success(h + t)
  }

  /** Pieces are read left to right: the list reads iff every piece does,
      and otherwise the first piece that does not read gives the error. */
  lemma {:induction false} ParseSpansReads(ps: seq<string>)
    ensures ParseSpans(ps).Success? <==> AllSpansRead(ps)
    ensures ParseSpans(ps).Failure? ==>
      exists i :: && 0 <= i < |ps| && ParseSpan(ps[i]).Failure?
                  && (forall k :: 0 <= k < i ==> ParseSpan(ps[k]).Success?)
                  && ParseSpans(ps).error == ParseSpan(ps[i]).error
    decreases |ps|
  {
    if |ps| > 0 {
      ParseSpansReads(ps[1..]);
      if ParseSpan(ps[0]).Success? && ParseSpans(ps[1..]).Failure? {
        var i :| && 0 <= i < |ps[1..]| && ParseSpan(ps[1..][i]).Failure?
                 && (forall k :: 0 <= k < i ==> ParseSpan(ps[1..][k]).Success?)
                 && ParseSpans(ps[1..]).error == ParseSpan(ps[1..][i]).error;
        assert ps[1..][i] == ps[i + 1];
        forall k | 0 <= k < i + 1 ensures ParseSpan(ps[k]).Success? {
          if k > 0 { assert ps[k] == ps[1..][k - 1]; }
        }
      }
      if AllSpansRead(ps) {
        forall k | 0 <= k < |ps[1..]| ensures ParseSpan(ps[1..][k]).Success? {
          assert ps[1..][k] == ps[k + 1];
        }
      }
      if ParseSpan(ps[0]).Success? && AllSpansRead(ps[1..]) {
        forall k | 0 <= k < |ps| ensures ParseSpan(ps[k]).Success? {
          if k > 0 { assert ps[k] == ps[1..][k - 1]; }
        }
      }
    }
  }

  /** `_parse_scheduled_weeks`: the weeks of every piece, concatenated in piece
      order, duplicates kept. */
  function ParseScheduledWeeks(text: string): (r: Result<seq<int>>)
    ensures r.Failure? ==> r.error.ValueError?
    ensures r.Success? <==> AllSpansRead(Split(text, ','))
    ensures r.Failure? ==>
      var ps := Split(text, ',');
      exists i :: && 0 <= i < |ps| && ParseSpan(ps[i]).Failure?
                  && (forall k :: 0 <= k < i ==> ParseSpan(ps[k]).Success?)
                  && r.error == ParseSpan(ps[i]).error
  {
    ParseSpansReads(Split(text, ','));
    ParseSpans(Split(text, ','))
  }

  // --------------------------------------------------- reference grammar

  /** A week-list token as the portal writes it. */
  datatype WeekToken =
    | Single(week: nat)
    | Every(lo: nat, hi: nat)
    | OddOnly(lo: nat, hi: nat)
    | EvenOnly(lo: nat, hi: nat)

  function RenderToken(t: WeekToken): string {
    match t
    case Single(n) => NatToString(n)
    case Every(a, b) => NatToString(a) + "-" + NatToString(b)
    case OddOnly(a, b) => NatToString(a) + "-" + NatToString(b) + "单"
    case EvenOnly(a, b) => NatToString(a) + "-" + NatToString(b) + "双"
  }

  function RenderTokens(ts: seq<WeekToken>): string
    requires |ts| >= 1
  {
    Join(seq(|ts|, i requires 0 <= i < |ts| => RenderToken(ts[i])), ',')
  }

  /** The weeks a token denotes. */
  function Expand(t: WeekToken): seq<int> {
    match t
    case Single(n) => [n]
    case Every(a, b) => Range(a, b)
    case OddOnly(a, b) => WithParity(Range(a, b), 1)
    case EvenOnly(a, b) => WithParity(Range(a, b), 0)
  }

  function ExpandAll(ts: seq<WeekToken>): seq<int>
    decreases |ts|
  {
    if |ts| == 0 then [] else Expand(ts[0]) + ExpandAll(ts[1..])
  }

  /** What each token means: `a-b` is every week from a to b ascending, `a-b单`
      only the odd and `a-b双` only the even ones among them, `n` just `n`. */
  lemma ExpandMeaning(t: WeekToken)
    ensures StrictlyAscending(Expand(t))
    ensures t.Single? ==> Expand(t) == [t.week]
    ensures t.Every? ==>
      && |Expand(t)| == (if t.hi >= t.lo then t.hi - t.lo + 1 else 0)
      && forall i :: 0 <= i < |Expand(t)| ==> Expand(t)[i] == t.lo + i
    ensures t.OddOnly? ==> forall x :: x in Expand(t) <==> t.lo <= x <= t.hi && x % 2 == 1
    ensures t.EvenOnly? ==> forall x :: x in Expand(t) <==> t.lo <= x <= t.hi && x % 2 == 0
  {
    match t
    case Single(_) =>
    case Every(_, _) =>
    case OddOnly(a, b) => WithParityAscending(Range(a, b), 1);
    case EvenOnly(a, b) => WithParityAscending(Range(a, b), 0);
  }

  lemma PairOfRender(a: nat, b: nat)
    ensures PairOf(NatToString(a) + "-" + NatToString(b)) == Success((a, b))
  {
    var sa := NatToString(a);
    var sb := NatToString(b);
    DigitsHaveNo(sa, '-');
    DigitsHaveNo(sb, '-');
    SplitCons(sa, '-', sb);
    SplitNone(sb, '-');
    assert Split(sa + "-" + sb, '-') == [sa, sb];
    ParseIntNatToString(a);
    ParseIntNatToString(b);
  }

  lemma RenderSingle(n: nat)
    ensures ParseSpan(NatToString(n)) == Success([n])
    ensures ',' !in NatToString(n)
  {
    ParseIntNatToString(n);
    DigitsHaveNo(NatToString(n), '-');
    DigitsHaveNo(NatToString(n), ',');
  }

  /** `a-b` has a dash, ends in a digit and has no comma. */
  lemma RenderPair(a: nat, b: nat)
    ensures var s := NatToString(a) + "-" + NatToString(b);
      && PairOf(s) == Success((a, b))
      && '-' in s && IsDigit(s[|s| - 1]) && ',' !in s
  {
    PairOfRender(a, b);
    var s := NatToString(a) + "-" + NatToString(b);
    assert s[|NatToString(a)|] == '-';
    DigitsHaveNo(NatToString(a), ',');
    DigitsHaveNo(NatToString(b), ',');
    assert IsDigit(NatToString(b)[|NatToString(b)| - 1]);
  }

  /** `a-b` reads as every week from `a` to `b`. */
  lemma ParseEvery(a: nat, b: nat)
    ensures ParseSpan(NatToString(a) + "-" + NatToString(b)) == Success(Range(a, b))
    ensures ',' !in NatToString(a) + "-" + NatToString(b)
  {
    RenderPair(a, b);
  }

  /** `a-b` followed by the marker `m`. */
  lemma RenderMarked(a: nat, b: nat, m: char)
    requires m == '单' || m == '双'
    ensures var s := NatToString(a) + "-" + NatToString(b) + [m];
      && '-' in s && s[|s| - 1] == m && s[..|s| - 1] == NatToString(a) + "-" + NatToString(b)
      && ',' !in s
  {
    RenderPair(a, b);
  }

  /** `a-b单` reads as the odd weeks from `a` to `b`. */
  lemma ParseOdd(a: nat, b: nat)
    ensures ParseSpan(NatToString(a) + "-" + NatToString(b) + "单") == Success(WithParity(Range(a, b), 1))
    ensures ',' !in NatToString(a) + "-" + NatToString(b) + "单"
  {
    RenderPair(a, b);
    RenderMarked(a, b, '单');
  }

  /** `a-b双` reads as the even weeks from `a` to `b`. */
  lemma ParseEven(a: nat, b: nat)
    ensures ParseSpan(NatToString(a) + "-" + NatToString(b) + "双") == Success(WithParity(Range(a, b), 0))
    ensures ',' !in NatToString(a) + "-" + NatToString(b) + "双"
  {
    RenderPair(a, b);
    RenderMarked(a, b, '双');
  }

  /** Each rendered token parses to the weeks it denotes. */
  lemma ParseSpanRender(t: WeekToken)
    ensures ParseSpan(RenderToken(t)) == Success(Expand(t))
    ensures ',' !in RenderToken(t)
  {
    match t
    case Single(n) => RenderSingle(n);
    case Every(a, b) => ParseEvery(a, b);
    case OddOnly(a, b) => ParseOdd(a, b);
    case EvenOnly(a, b) => ParseEven(a, b);
  }

  lemma {:induction false} ParseSpansRender(ts: seq<WeekToken>, ps: seq<string>)
    requires |ps| == |ts|
    requires forall i :: 0 <= i < |ts| ==> ps[i] == RenderToken(ts[i])
    ensures ParseSpans(ps) == Success(ExpandAll(ts))
    decreases |ts|
  {
    if |ts| > 0 {
      ParseSpanRender(ts[0]);
      ParseSpansRender(ts[1..], ps[1..]);
    }
  }

  /** Round trip: the week list written from tokens parses to the weeks the
      tokens denote, concatenated in token order. */
  lemma ParseScheduledWeeksRender(ts: seq<WeekToken>)
    requires |ts| >= 1
    ensures ParseScheduledWeeks(RenderTokens(ts)) == Success(ExpandAll(ts))
  {
    var ps := seq(|ts|, i requires 0 <= i < |ts| => RenderToken(ts[i]));
    forall i | 0 <= i < |ts| ensures ',' !in ps[i] {
      ParseSpanRender(ts[i]);
    }
    SplitJoin(ps, ',');
    ParseSpansRender(ts, ps);
  }

  lemma {:induction false} ParseSpansAppend(p1: seq<string>, p2: seq<string>)
    ensures ParseSpans(p1 + p2) ==
      (if ParseSpans(p1).Failure? then ParseSpans(p1)
       else if ParseSpans(p2).Failure? then ParseSpans(p2)
       else Success(ParseSpans(p1).value + ParseSpans(p2).value))
    decreases |p1|
  {
    if |p1| == 0 {
      assert p1 + p2 == p2;
      if ParseSpans(p2).Success? {
        assert [] + ParseSpans(p2).value == ParseSpans(p2).value;
      }
    } else {
      assert (p1 + p2)[0] == p1[0];
      assert (p1 + p2)[1..] == p1[1..] + p2;
      ParseSpansAppend(p1[1..], p2);
      if ParseSpan(p1[0]).Success? && ParseSpans(p1[1..]).Success? && ParseSpans(p2).Success? {
        assert ParseSpan(p1[0]).value + (ParseSpans(p1[1..]).value + ParseSpans(p2).value)
          == (ParseSpan(p1[0]).value + ParseSpans(p1[1..]).value) + ParseSpans(p2).value;
      }
    }
  }

  /** Pieces are read left to right and their weeks concatenated: the weeks
      of `a,b` are those of `a` followed by those of `b`, and the first
      unreadable piece decides the error. */
  lemma ParseScheduledWeeksAppend(a: string, b: string)
    ensures ParseScheduledWeeks(a + "," + b) ==
      (if ParseScheduledWeeks(a).Failure? then ParseScheduledWeeks(a)
       else if ParseScheduledWeeks(b).Failure? then ParseScheduledWeeks(b)
       else Success(ParseScheduledWeeks(a).value + ParseScheduledWeeks(b).value))
  {
    SplitAppend(a, ',', b);
    ParseSpansAppend(Split(a, ','), Split(b, ','));
  }

  /** `3-7双` is the even weeks between 3 and 7: `[4, 6]`. */
  lemma EvenWeeksExample()
    ensures ParseScheduledWeeks("3-7双") == Success([4, 6])
  {
    ParseScheduledWeeksRender([EvenOnly(3, 7)]);
    EvenWeeksRendering();
    EvenWeeksExpansion();
  }

  lemma EvenWeeksRendering()
    ensures RenderTokens([EvenOnly(3, 7)]) == "3-7双"
  {
    assert RenderToken(EvenOnly(3, 7)) == "3-7双";
  }

  lemma EvenWeeksExpansion()
    ensures ExpandAll([EvenOnly(3, 7)]) == [4, 6]
  {
    WeeksThreeToSeven();
    EvenOfThreeToSeven();
    assert ExpandAll([EvenOnly(3, 7)]) == Expand(EvenOnly(3, 7)) + ExpandAll([]);
  }

  lemma WeeksThreeToSeven()
    ensures Range(3, 7) == [3, 4, 5, 6, 7]
  {
  }

  lemma EvenOfThreeToSeven()
    ensures WithParity([3, 4, 5, 6, 7], 0) == [4, 6]
  {
    var r := [3, 4, 5, 6, 7];
    assert r[1..] == [4, 5, 6, 7];
    assert [4, 5, 6, 7][1..] == [5, 6, 7];
    assert [5, 6, 7][1..] == [6, 7];
    assert [6, 7][1..] == [7];
    assert [7][1..] == [];
  }

  /** A single piece that is not an integer raises `ValueError`. */
  lemma NonIntegerWeekFails(text: string)
    requires '-' !in text && ',' !in text
    requires ParseInt(text).None?
    ensures ParseScheduledWeeks(text) == Failure(ValueError(NotAnInteger(text)))
  {
    SplitNone(text, ',');
  }

  // ----------------------------------------------------- ScheduledDates

  /** A weekly recurrence: the listed teaching weeks, on weekday `dayOfWeek` (1 = Monday). */
  datatype ScheduledDates = ScheduledDates(weeks: seq<int>, dayOfWeek: int)

  /** The day ordinal of weekday `dow` of teaching week `week`, week 1 starting on `start`. */
  function DayOrdinal(start: Date, week: int, dow: int): int
    requires Valid(start)
  {
    ToOrdinal(start) + 7 * (week - 1) + (dow - 1)
  }

  /** `ScheduledDates.all_dates`: one date per listed week, in list order. */
  function AllDates(sd: ScheduledDates, start: Date): (r: seq<int>)
    requires Valid(start)
    ensures |r| == |sd.weeks|
    ensures forall i :: 0 <= i < |r| ==> r[i] == DayOrdinal(start, sd.weeks[i], sd.dayOfWeek)
  {
    seq(|sd.weeks|, i requires 0 <= i < |sd.weeks| => DayOrdinal(start, sd.weeks[i], sd.dayOfWeek))
  }

  /** `ScheduledDates.contains`: the weekday is the recurrence's and the week
      is listed, wherever and however often. */
  function Contains(sd: ScheduledDates, week: int, dow: int): (r: bool)
    ensures r <==> dow == sd.dayOfWeek && exists i :: 0 <= i < |sd.weeks| && sd.weeks[i] == week
  {
    dow == sd.dayOfWeek && week in sd.weeks
  }

  /** The membership test and the date expansion agree: (week, weekday) is
      in the recurrence exactly when its date is among the expanded dates. */
  lemma ContainsIffOccurs(sd: ScheduledDates, start: Date, week: int, dow: int)
    requires Valid(start)
    requires 1 <= sd.dayOfWeek <= 7 && 1 <= dow <= 7
    ensures Contains(sd, week, dow) <==> DayOrdinal(start, week, dow) in AllDates(sd, start)
  {
    var ds := AllDates(sd, start);
    if Contains(sd, week, dow) {
      var i :| 0 <= i < |sd.weeks| && sd.weeks[i] == week;
      assert ds[i] == DayOrdinal(start, week, dow);
    }
    if DayOrdinal(start, week, dow) in ds {
      var i :| 0 <= i < |ds| && ds[i] == DayOrdinal(start, week, dow);
      var w := sd.weeks[i];
      assert 7 * (w - week) == dow - sd.dayOfWeek;
      assert w == week;
    }
  }

  /** Ascending weeks give ascending dates, all on the recurrence's weekday. */
  lemma AllDatesOrdered(sd: ScheduledDates, start: Date)
    requires Valid(start) && 1 <= sd.dayOfWeek <= 7
    ensures StrictlyAscending(sd.weeks) ==> StrictlyAscending(AllDates(sd, start))
    ensures forall i :: 0 <= i < |sd.weeks| ==>
      (AllDates(sd, start)[i] - ToOrdinal(start)) % 7 == sd.dayOfWeek - 1
  {
  }
}
